=== FILE: README.md ===
# Identity provider core, modelled in Dafny

This project models the core of an Express/Prisma identity provider and proves
properties of that model:

- **Authentication and session engine** (`AuthService`): registration with email verification, and login with an optional TOTP step-up. Login issues a short-lived access token and a long-lived refresh token; only the refresh token's SHA-256 digest is stored.
- **Session management**: access-token refresh, logout, password recovery, and the MFA lifecycle (enrol, confirm, disable).
- **CORS origin cache** (`CorsService`): an in-memory allow-list. It is rebuilt in full from the active rows of the origin table after every administrative write.
- **HTTP edges**:
  - the auth controller's decision table from engine outcome to status code and refresh-cookie action;
  - the user controller's profile and soft-delete endpoints;
  - the bearer-token middleware and the role gate;
  - the request validators;
  - the backup-code formatting of the TOTP service.

Modules, one per file:

| file | module | form |
|---|---|---|
| `wrappers.dfy` | `Wrappers` | `Option`, `Result`, JavaScript truthiness of an optional string |
| `roles.dfy` | `Roles` | roles and `checkRole`, pure |
| `codec.dfy` | `Codec` | tokens, digests, bcrypt hashes, pure |
| `totp.dfy` | `Totp` | `verifyToken`, backup codes (a method with a loop), digests |
| `validators.dfy` | `Validators` | the validation rules as predicates |
| `entities.dfy` | `Entities` | store records, the sanitized user, mail links, profile views |
| `store.dfy` | `Store` | the credential store and the mail outbox, as classes |
| `auth_service.dfy` | `Auth` | `AuthService` as a class whose methods update the store |
| `http.dfy` | `Http` | responses, cookie actions |
| `auth_controller.dfy` | `AuthController` | the handlers as pure functions |
| `user_controller.dfy` | `UserController` | profile read, profile update and soft delete, on the store |
| `auth_middleware.dfy` | `AuthMiddleware` | `authenticate`, `optionalAuthenticate`, the role gate as a request gate |
| `cors.dfy` | `Cors` | the origin table and `CorsService`, as classes |
| `scenarios.dfy` | `Scenarios` | cross-operation guarantees, as client methods |

## Inputs the model takes as parameters

Time and the outside world are parameters:

- **Time:** `now` is in milliseconds; token times are whole seconds, `floor(ms/1000)`.
- **Random values:** new user ids, the verification and reset tokens, the TOTP secret, the bcrypt salt, the temporary step-up token, and the four random bytes of each backup code (`draw`).
- **Mail:** the mail transport's verdict (`Delivery`).
- **TOTP:** the authenticator library's verdict on a (code, secret) pair (`Authenticator`).
- **CORS store read:** whether the origin-table read in `refreshCache` fails (`readFailure`).

## Modelling decisions

- **Tokens.** Signed tokens are a datatype that carries its claims and the secret it was signed with. Verification checks four things: the secret, the issuer, the audience, and `now < exp` in whole seconds. So the model proves two facts rather than assuming them: a minted token verifies with its own payload until it expires, and access and refresh tokens never verify as each other.
- **Hashes.** SHA-256 digests are injective tags on their input. A bcrypt hash names the key bcrypt actually reads: the first 72 bytes of the password's UTF-8 encoding. So a password of 72 bytes or more is accepted with any tail appended, and a short ASCII password is the only one its hash accepts; both are proved.
- **Token lifetimes** are configuration (`JwtConfig.accessTtl`, `JwtConfig.refreshTtl`, in seconds); the defaults are 15 minutes and 7 days. The refresh-token row's own expiry is fixed at 7 days in the engine, whatever the token's lifetime.
- **Lengths** in the validators are `isLength`'s measure: code points, not counting the variation selectors U+FE0E and U+FE0F.
- **Store.** The credential store holds four things:
  - users by id;
  - an exact email index (emails are compared exactly; no case folding);
  - refresh-token rows keyed by token digest;
  - the append-only audit log.

  Its invariant `Valid()` ties these together. It also says MFA is only on for a user holding a secret. Every engine method keeps `Valid()` and states its whole new store state.
- **Same-second logins collide.** Two full logins of one user within the same second mint the same refresh token: the payload, issuer, audience, `iat` and `exp` are all equal, and there is no nonce. The digest column is unique, so the second login's row insert fails. `Login` models this as `DuplicateRefreshToken`, with no write after the failed insert.
- **Mail failures leave the write in place.** Both `register` and `forgotPassword` write first and then await the mail:
  - a refused verification mail leaves the new user stored, with no audit entry;
  - a refused reset mail leaves the reset token stored.

  In both cases the transport's error is thrown, and the controllers pass it to the generic handler. For `forgotPassword` this means a failed mail answers differently from an unknown email.
- **Login returns the row as read.** A full login returns the user as read before `lastLoginAt` is stamped.
- **`isNumeric`.** The TOTP code check follows validator.js's default rule `^[+-]?([0-9]*[.])?[0-9]+$`. So `+12345` and `1.2345` pass as six-character codes.
- **Schema defaults.** A new user gets roles `[USER]`, is active, is unverified and has MFA off. A new origin is active. These defaults come from the data schema, which is not part of this model.
- **Two behaviours of the code worth stating:**
  - The development origins are added only when the environment name is exactly `development` (`src/services/cors.service.ts:4`), not in any non-production mode. The name is the resolved configuration value (`nodeEnv` in `Cors.CorsService.constructor`), and an unset `NODE_ENV` resolves to `development` (`src/config/env.ts:50`), so a deployment that does not set it allows the five localhost origins.
  - Refresh tokens are never rotated: `refreshAccessToken` returns only a new access token.

## Model

| member | source | states |
|---|---|---|
| Roles.SharesRoleIff | src/middlewares/roleCheck.middleware.ts:14 | The left-to-right `some`/`includes` scan is true exactly when some role is in both lists. |
| Roles.CheckRole | src/middlewares/roleCheck.middleware.ts:9-25 | No user gives 401. With a user, the gate passes iff the user's roles and the allowed roles intersect; otherwise it gives 403 carrying the allowed list and the user's roles. |
| Roles.IsAdmin | src/middlewares/roleCheck.middleware.ts:32 | Passes iff ADMIN is among the user's roles. |
| Roles.IsModerator | src/middlewares/roleCheck.middleware.ts:37 | Passes iff ADMIN or MODERATOR is among the user's roles. |
| Roles.CheckRoleMonotone | src/middlewares/roleCheck.middleware.ts:14 | Adding roles to the user or to the allowed list never turns a pass into a 403. |
| Roles.EmptyAllowedForbids | src/middlewares/roleCheck.middleware.ts:14-23 | An empty allowed list refuses every user with 403. |
| Codec.VerifyMonotone | src/utils/jwt.strategy.ts:42-65 | A token that verifies at some moment verified at every earlier moment, with the same claims: once expired, a token never verifies again. |
| Codec.VerifyOneAudience | src/utils/jwt.strategy.ts:42-65 | No token verifies under both audiences, at any times: the access and refresh checks never both accept one token. |
| Codec.Mint | src/utils/jwt.strategy.ts:20-37 | A minted token verifies at time n iff n is within the configured lifetime of its audience (`JWT_ACCESS_EXPIRY` / `JWT_REFRESH_EXPIRY`). It then carries the payload it was minted with, and it never verifies under the other audience. |
| Codec.BcryptKey | src/utils/password.utils.ts:7-18 | The key bcrypt hashes is at most 72 bytes and a prefix of the password's UTF-8 encoding. |
| Codec.HashPassword | src/utils/password.utils.ts:7-9 | The hash accepts the password it was made from, and any other password exactly when the two agree on their first 72 UTF-8 bytes (the check at `comparePassword`, :14-19). |
| Codec.ShortAsciiPasswordExact | src/utils/password.utils.ts:14-19 | For an ASCII password of at most 71 characters, its hash accepts it and nothing else. |
| Codec.LongPasswordAcceptsAnyTail | src/utils/password.utils.ts:14-19 | A password of 72 or more UTF-8 bytes is accepted by its hash with anything appended. |
| Totp.VerifyToken | src/services/totp.service.ts:24-30 | Total: true iff the library returns true; a library exception counts as false. |
| Totp.BackupCode | src/services/totp.service.ts:38-39 | Nine characters: four upper-case hex digits, `-`, four upper-case hex digits. |
| Totp.ParseBackupCodeRoundTrip | src/services/totp.service.ts:38-39 | Reading a code back gives the four random bytes it was printed from. |
| Totp.BackupCodeInjective | src/services/totp.service.ts:36-40 | Distinct random draws give distinct codes. |
| Totp.GenerateBackupCodes | src/services/totp.service.ts:35-42 | Returns exactly `count` codes (default 10; none for 0 or less). Code i is printed from the i-th draw, in order. |
| Totp.HashBackupCodes | src/services/auth.service.ts:378 | One digest per code, same length and order. |
| Validators.LookaheadIff | src/utils/validators.ts:11 | A `(?=.*[k])` lookahead succeeds iff a character of class k occurs before the first line terminator. |
| Validators.VisibleLength | src/utils/validators.ts:9 | `isLength`'s measure is at most the number of code points, and equals it iff the text has no variation selector. |
| Validators.StrongPassword | src/utils/validators.ts:8-11 | Accepted iff at least 8 characters by `isLength`'s measure, the first character in `[A-Za-z\d@$!%*?&]`, and a lower-case letter, an upper-case letter, a digit and one of `@$!%*?&` each before any line break. |
| Validators.VariationSelectorsNotCounted | src/utils/validators.ts:9 | `Aa1@` followed by four U+FE0F is eight code points, but is refused as too short. |
| Validators.StrongPasswordSuffixClosed | src/utils/validators.ts:11 | The pattern is anchored only at the start: appending anything to an accepted password keeps it accepted. |
| Validators.StrongPasswordAcceptsAnyTail | src/utils/validators.ts:11 | A concrete password with a line break and non-ASCII characters after its first four is accepted. |
| Validators.ResetUsesRegisterRule | src/utils/validators.ts:24-32 | A reset accepts a password iff the token is non-empty and a registration without names accepts the password: the two forms share one password rule. |
| Validators.RegisterValid | src/utils/validators.ts:3-17 | With both names left out, registration accepts exactly the passwords the password rule accepts; any password it accepts also passes the login form. |
| Validators.LoginValid | src/utils/validators.ts:19-22 | Every password the registration rule accepts passes the login form's non-empty check. |
| Validators.UnsignedNumeralShape | src/utils/validators.ts:42 | The unsigned part `([0-9]*[.])?[0-9]+` is non-empty, made of digits and points, and ends in a digit. |
| Validators.IsNumeric | src/utils/validators.ts:42 | Whatever `isNumeric` accepts is digits and points, with at most a leading sign, and ends in a digit. |
| Validators.TotpCodeValid | src/utils/validators.ts:39-43 | A well-formed code is 6 characters and always ends in a digit. |
| Validators.SixDigitsAccepted | src/utils/validators.ts:39-43 | Every six-digit string passes the TOTP code rule. |
| Validators.SignedAndDecimalCodesAccepted | src/utils/validators.ts:40-43 | `+12345` and `1.2345` pass the code rule; `12345a` fails. |
| Validators.TrimStart | src/utils/validators.ts:15-16 | A suffix of the input; exactly the leading whitespace is removed. |
| Validators.TrimEnd | src/utils/validators.ts:15-16 | A prefix of the input; exactly the trailing whitespace is removed. |
| Validators.Trim | src/utils/validators.ts:15-16 | A slice of the input with no whitespace at either end, where everything cut off at either end is whitespace. |
| Validators.NameValid | src/utils/validators.ts:15-16 | An absent name passes; a supplied name that passes holds at least one character other than whitespace. |
| Validators.BlankNameRejected | src/utils/validators.ts:15-16 | A name made only of spaces fails the 1..50 trimmed-length rule. |
| Entities.SanitizeUser | src/services/auth.service.ts:449-452 | Drops exactly the password, MFA secret, verification token and reset token: putting those four back gives the original user. |
| Entities.TokenLink | src/services/email.service.ts:23-53 | The mail link is exactly the backend URL, then the endpoint path, then the token. |
| Store.RevokeByHash | src/services/auth.service.ts:251-261 | Marks revoked, with the revocation time, the row under that digest if any; every other row is unchanged. |
| Store.RevokeForUser | src/services/auth.service.ts:347-351 | Marks revoked every row of that user, and no row of any other user. |
| Store.CredentialStore.FindByEmail | src/services/auth.service.ts:41-43 | Finds a user iff one has exactly that email, and returns that stored row. |
| Store.CredentialStore.CreateUser | src/services/auth.service.ts:57-66 | Adds the row and its email to the index; keeps the store invariant. |
| Store.CredentialStore.UpdateUser | src/services/auth.service.ts:278-285 | Replaces one row; nothing else changes. |
| Store.CredentialStore.CreateRefreshToken | src/services/auth.service.ts:168-176 | Inserts iff the digest is new; a duplicate digest leaves the store unchanged. |
| Store.CredentialStore.RevokeTokensByHash | src/services/auth.service.ts:254-260 | The token table becomes `RevokeByHash` of the old one; nothing else changes. |
| Store.CredentialStore.RevokeTokensOfUser | src/services/auth.service.ts:348-351 | The token table becomes `RevokeForUser` of the old one; nothing else changes. |
| Store.CredentialStore.AppendAudit | src/services/auth.service.ts:72-80 | Appends one entry; nothing else changes. |
| Store.Mailer.Send | src/services/auth.service.ts:69 | A delivered mail is appended to the outbox; a refused one leaves it unchanged and yields the error. |
| Auth.LoginGate | src/services/auth.service.ts:105-149 | The login decision order: deactivated regardless of password; then wrong password; then unverified; then missing code; then wrong code; otherwise authenticated. Each outcome is given as an iff. |
| Auth.AuthService.Register | src/services/auth.service.ts:41-84 | A stored email gives the duplicate error with nothing written. Otherwise one user row is added (token expiring now+24h), then the verification mail is sent. Delivered: one USER_REGISTERED entry and the sanitized user are returned. Refused: the row stays, no audit entry is written, and the transport's error is returned. |
| Auth.AuthService.Login | src/services/auth.service.ts:90-201 | Unknown email: 'Invalid credentials', no write. Wrong password: exactly one LOGIN_FAILED entry. Missing code with MFA on: the step-up answer with nothing written. Wrong code: an error with nothing written. Full login: one unrevoked row for the returned refresh token's digest, expiring now+7d, then lastLoginAt stamped and one USER_LOGIN entry. |
| Auth.AuthService.RefreshAccessToken | src/services/auth.service.ts:206-246 | Succeeds iff the token verifies, its row is live and not past `expiresAt`, and its user is active. The first failing check names the error. It writes nothing and returns only a new access token. |
| Auth.AuthService.Logout | src/services/auth.service.ts:251-261 | Revokes the row for the token's digest (none matching is fine). Afterwards the token can never refresh. |
| Auth.AuthService.VerifyEmail | src/services/auth.service.ts:266-288 | Fails with nothing written iff no user has that token with expiry >= now. Otherwise such a user is marked verified and loses token and expiry. |
| Auth.AuthService.ForgotPassword | src/services/auth.service.ts:293-319 | Same message for known and unknown emails. Only a known email gets writes: a reset token expiring now+1h, then the reset mail. |
| Auth.AuthService.ResetPassword | src/services/auth.service.ts:324-354 | Fails with nothing written iff no user has that token with expiry >= now. Otherwise: new password hash, token and expiry cleared, then every refresh row of that user, and only that user, revoked. |
| Auth.AuthService.EnableMfa | src/services/auth.service.ts:359-390 | Unknown user or MFA already on: an error with no write. Otherwise the secret and the digests of ten fresh codes are stored, replacing any pending enrolment, and MFA stays off. |
| Auth.AuthService.VerifyMfa | src/services/auth.service.ts:395-415 | No (non-empty) secret: 'MFA setup not initiated'. A bad code: 'Invalid MFA code'. Neither writes. Otherwise only `isMfaEnabled` becomes true. |
| Auth.AuthService.DisableMfa | src/services/auth.service.ts:420-444 | MFA off: 'MFA is not enabled'. A bad code: 'Invalid MFA code'. Neither writes. Otherwise the flag, secret and backup codes are all cleared. |
| AuthController.RegisterHandler | src/controllers/auth.controller.ts:10-36 | Invalid input: 400 with no engine call. Success: 201. 409 iff the error text is the duplicate-email message; among the engine's own errors, that is only EmailTaken. |
| AuthController.LoginHandler | src/controllers/auth.controller.ts:41-98 | The refresh cookie is set iff the login completed. It is httpOnly, 7 days, and holds the refresh token, while the body has the user and the access token only. The step-up answer is 200 with the temporary token and no cookie. Exactly the four login failures give 401. |
| AuthController.RefreshHandler | src/controllers/auth.controller.ts:103-128 | No cookie: 401 with no engine call. The cookie is cleared iff the error is one of the three token failures (then 401). An inactive holder goes to the generic handler. |
| AuthController.LogoutHandler | src/controllers/auth.controller.ts:133-146 | The engine is called iff the cookie is present. Unless that call fails, the answer is 200 and the cookie is cleared. |
| AuthController.VerifyEmailHandler | src/controllers/auth.controller.ts:151-169 | A missing, empty or non-string token gives 400 before any engine call. Only the invalid-token text gives 400 afterwards. |
| AuthController.ForgotPasswordHandler | src/controllers/auth.controller.ts:174-189 | Invalid input gives 400. The handler answers iff the engine succeeded; every error goes to the generic handler. |
| AuthController.ResetPasswordHandler | src/controllers/auth.controller.ts:194-213 | Invalid input gives 400. Only the invalid-reset-token text gives 400 after the call. |
| AuthController.EnableMfaHandler | src/controllers/auth.controller.ts:218-240 | No caller: 401 with no call. Only 'MFA is already enabled' gives 400; 'User not found' goes to the generic handler. |
| AuthController.VerifyMfaHandler | src/controllers/auth.controller.ts:245-272 | The caller is checked before the input. The two MFA failures give 400. |
| AuthController.DisableMfaHandler | src/controllers/auth.controller.ts:277-304 | No caller: 401. A missing or empty code: 400 with no call. The two MFA failures give 400. |
| UserController.GetProfile | src/controllers/user.controller.ts:37-67 | No caller: 401. No row: 404. Otherwise 200 with the caller's own profile. |
| UserController.ProfileHidesSecrets | src/controllers/user.controller.ts:44-57 | Profile and summary do not depend on the password hash, MFA secret, backup codes, or either token. |
| UserController.Replacement | src/controllers/user.controller.ts:85-86 | A missing or empty value keeps the stored one; a non-empty value replaces it. |
| UserController.UpdateProfile | src/controllers/user.controller.ts:73-100 | No caller: 401 and no write. No row: not-found to the generic handler, no write. Otherwise only the two names of the caller's row change, and the summary is returned. |
| UserController.WithNamesKeepsTheRest | src/controllers/user.controller.ts:82-95 | Every other column is left as it was; with no non-empty names, the row is unchanged. |
| UserController.DeleteAccount | src/controllers/user.controller.ts:106-130 | No caller: 401 and no write. Otherwise the caller's row is deactivated (never removed), then every refresh row of that user and of no other is revoked, and the cookie is cleared. |
| AuthMiddleware.StartsWithBearer | src/middlewares/auth.middleware.ts:29 | `startsWith('Bearer ')` holds exactly for headers that are `Bearer ` followed by some token. |
| AuthMiddleware.BearerToken | src/middlewares/auth.middleware.ts:34 | The header is exactly `Bearer ` followed by the extracted token. |
| AuthMiddleware.BearerRoundTrip | src/middlewares/auth.middleware.ts:29-34 | `Bearer ` + t passes the prefix test and yields t. |
| AuthMiddleware.LowerCaseSchemeRefused | src/middlewares/auth.middleware.ts:29 | The prefix test is case-sensitive: `bearer ` is refused. |
| AuthMiddleware.Authenticate | src/middlewares/auth.middleware.ts:21-52 | 'No token provided' iff the header is missing or lacks the prefix. A refused token: 'Invalid or expired token'. Otherwise go on with exactly the decoded id, email and roles. |
| AuthMiddleware.OptionalAuthenticate | src/middlewares/auth.middleware.ts:57-82 | Always goes on. The user changes only when the prefix matches and the verifier accepts, and then becomes the decoded payload. |
| AuthMiddleware.OptionalAgreesWithStrict | src/middlewares/auth.middleware.ts:57-82 | Where the strict gate passes, the optional one sets the same user; where it halts, the optional one keeps the old user. |
| AuthMiddleware.MintedTokenAdmitsItsUser | src/middlewares/auth.middleware.ts:34-43 | An unexpired access token minted for a payload admits exactly that payload. |
| AuthMiddleware.RoleCheck | src/middlewares/roleCheck.middleware.ts:7-27 | 401 without a user. The request goes on, user unchanged, iff the roles intersect. Otherwise 403 'Insufficient permissions' with both role lists. |
| AuthMiddleware.AdminChain | src/routes/user.routes.ts:14 | `authenticate, isAdmin` lets a request through iff its bearer token verifies and its roles include ADMIN. |
| Cors.Projection | src/services/cors.service.ts:37-63 | An origin is in the projection iff an active row carries it or it is a development origin in development. |
| Cors.DeactivateUrl | src/services/cors.service.ts:144-147 | Every row with that URL becomes inactive; no row is removed; others are unchanged. |
| Cors.OriginTable.FindById | src/services/cors.service.ts:88-92 | The row with that id, if any. |
| Cors.OriginTable.Create | src/services/cors.service.ts:98-103 | Refused, with no write, iff the URL is already used. Otherwise the row is added. |
| Cors.OriginTable.Update | src/services/cors.service.ts:115-118 | An unknown id, or a URL another row holds, gives an error with no write. Otherwise only that row is patched. |
| Cors.OriginTable.Delete | src/services/cors.service.ts:130-132 | An unknown id gives an error with no write. Otherwise that row is removed and returned. |
| Cors.OriginTable.DeactivateByUrl | src/services/cors.service.ts:144-147 | The table becomes `DeactivateUrl` of the old one. |
| Cors.OriginTable.FindActiveUrls | src/services/cors.service.ts:37-40 | The URLs returned are exactly those of the active rows. |
| Cors.CorsService.constructor | src/services/cors.service.ts:4-8 | Empty cache, no refresh yet; development mode iff the environment is exactly 'development'. |
| Cors.CorsService.IsOriginAllowed | src/services/cors.service.ts:20-27 | An absent or empty origin is allowed; any other is allowed iff it is cached. |
| Cors.CorsService.RefreshCache | src/services/cors.service.ts:32-74 | A failing read leaves the cache and `lastRefresh` as they were. Otherwise the cache becomes exactly the projection of the table, with no earlier entry surviving, and `lastRefresh` is stamped. |
| Cors.CorsService.AddOrigin | src/services/cors.service.ts:97-109 | A duplicate URL changes nothing. Otherwise the row is stored active. If the refresh read succeeds, the call returns the new row, `lastRefresh` is stamped, and the cache equals the projection and contains the URL. If it fails, the cache and `lastRefresh` are as before and the error surfaces. |
| Cors.CorsService.UpdateOrigin | src/services/cors.service.ts:114-124 | A refused update changes nothing. On success the cache equals the projection of the patched table. |
| Cors.CorsService.DeleteOrigin | src/services/cors.service.ts:129-138 | An unknown id changes nothing. On success the cache equals the projection, and the deleted URL stays allowed only if it is a development origin. |
| Cors.CorsService.RemoveOrigin | src/services/cors.service.ts:143-151 | All rows with the URL are deactivated. If the refresh read succeeds, the call succeeds, `lastRefresh` is stamped, and the URL is cached iff it is a development origin. If it fails, the cache and `lastRefresh` are as before. |
| Cors.CorsService.ToggleOriginStatus | src/services/cors.service.ts:156-171 | An unknown id: 'Origin not found', with no write and no refresh. Otherwise only that row's `isActive` is negated, and on success the cache equals the projection. |
| Cors.CorsService.GetAllowedOrigins | src/services/cors.service.ts:13-15 | Each cached origin exactly once; the length equals the cache size. |
| Cors.CorsService.GetCacheStats | src/services/cors.service.ts:176-182 | `totalOrigins` equals the cache size and the length of the list, which holds exactly the cached origins. |
| Cors.AllowedIffActiveOrDev | src/services/cors.service.ts:20-63 | Once synced, a non-empty origin is allowed iff an active row carries it or it is a development origin in development. |
| Cors.EmptyTableAllowsOnlyBlank | src/services/cors.service.ts:20-63 | Outside development, an empty table's projection holds no non-empty origin. |
| Scenarios.LoginThenRefresh | src/services/auth.service.ts:151-246 | With a refresh lifetime of at least one second, the refresh token from a full login refreshes at once, for the user who logged in. |
| Scenarios.LogoutThenRefresh | src/services/auth.service.ts:206-261 | After logout the token is refused: as revoked whenever it still verifies. |
| Scenarios.DeactivationLocksOut | src/controllers/user.controller.ts:106-130 | After deleting the account, login stops at the deactivation check for any password or code. No token naming the user refreshes, and no stored token of the user is live. |
| Scenarios.VerifyEmailTwice | src/services/auth.service.ts:266-288 | A verification token held by one user succeeds once; presenting it again fails. |
| Scenarios.EnrolThenConfirm | src/services/auth.service.ts:359-415 | Enrol then confirm: MFA is on iff the code is accepted, with the new secret and the digests of the codes handed out. A later login without a code gets only the step-up answer. |
| Scenarios.ResetEndsSessions | src/services/auth.service.ts:324-354 | After a reset the user's hash accepts the new password, and exactly the passwords that share its first 72 UTF-8 bytes; no stored refresh token of that user is live. |

## Left out

- QR-code rendering (`generateQRCode`) and TOTP secret generation: library output. The secret is a parameter, and `enableMfa`'s answer carries no QR code.
- The TOTP algorithm itself (time steps, drift window, section 4 of RFC 6238): the authenticator library's verdict is a parameter.
- JWT encoding and signing, SHA-256, bcrypt and random generation: modelled as ideal (see "Modelling decisions"). In the model a digest names its preimage; the real functions are one-way.
- `getAllOriginsFromDB` (an ordered listing of the whole table) and the CORS admin controller, which depends on URL parsing and on matching store error texts.
- Email-format validation and `normalizeEmail`: validator-library behaviour. The engine compares emails exactly. The validators model the password, code and name rules, not the email rule, and which rule output reaches `register` is a parameter (`validationErrors`).
- Rate limiting, concurrency between requests, and process start-up. Each operation is atomic and sequential; start-up fills the cache by calling `RefreshCache` before listening.
- Store failures other than the ones the source distinguishes: the duplicate refresh-token digest, the duplicate origin URL, not-found on update or delete, and a failing origin read. Any other store error in `logout` is the `failure` parameter of `LogoutHandler`.
- The HTML mail bodies; only the link and the recipient are modelled.
- Token lifetimes are whole seconds in the configuration; parsing duration strings such as '15m' is not modelled.
- Codec.HashPassword: a password containing U+0000 is not modelled. The bcrypt binding reads the key as a C string and stops at that character, while the model keeps the bytes after it.
- UserController.UpdateProfile: body values that are not strings (numbers, objects) are not modelled; a name is an optional string.
- AuthController.LoginHandler: a non-string password is not modelled. `notEmpty()` (src/utils/validators.ts:21) checks the value's string form, so a number passes validation. It then reaches `comparePassword`, where the bcrypt package refuses non-string data and throws. That error matches none of the login messages, so the answer is 500 from the generic handler, not 401, and no LOGIN_FAILED entry is written. Auth.AuthService.Login takes the password as a string, so it has no such input.
- AuthController.VerifyMfaHandler: a numeric code is not modelled. It passes `isLength` and `isNumeric` (src/utils/validators.ts:40-43) and reaches `verifyToken` as a number. The authenticator library compares tokens with `===` against a string, so a numeric code is never accepted, even with the right digits. Auth.AuthService.VerifyMfa takes the code as a string, with the library's verdict as a parameter, so it does not capture this.
- AuthController.DisableMfaHandler: non-string codes are not modelled. The route has no validator, and `!code` lets any truthy number or `true` reach the engine, where the library never accepts it (as above); a `0` gets 400. The handler's `Option<string>` represents neither case, and Auth.AuthService.DisableMfa takes the code as a string.
- AuthController.RefreshHandler: the cookie is an optional token. An empty cookie counts as absent (`None`), as `!refreshToken` treats it: 401 'Refresh token not found', no engine call and no cleared cookie. Any other string that is not a token behaves like a token that fails verification.
- AuthController.LogoutHandler: the cookie is an optional token. An empty cookie counts as absent, as `if (refreshToken)` treats it. A non-empty string that is not a token still reaches the engine in the source, where its digest matches no row; the model has no such input, and it behaves like a token with no stored row (nothing is revoked, the answer is 200 and the cookie is cleared).
- Auth.AuthService.VerifyEmail: when several users hold the same token, the store's `findFirst` picks the first in table order; the model promises only that some matching user is verified.
- Auth.AuthService.ResetPassword: when several users hold the same reset token, the model promises only that some matching user is reset; the source takes the first in table order.
- Cors.CorsService.GetAllowedOrigins: the cache is a set, so the list's order is not modelled. The source lists in insertion order: active rows in table order, then the development origins.

=== FILE: auth_controller.dfy ===
/**
 * The authentication endpoints: each handler turns the request's own checks and the
 * engine's outcome into one status code, body and refresh-cookie action. A handler that
 * answers before calling the engine ignores the outcome it is given. Thrown errors are
 * recognised by their message text only; an unrecognised one goes to the generic handler.
 */
module AuthController {

  import opened Wrappers
  import opened Codec
  import opened Totp
  import opened Entities
  import opened Auth
  import opened Http

  /** A query-string value: absent, one string, or an array or object. */
  datatype QueryParam = Missing | Text(value: string) | Structured

  const MFA_REQUIRED_MESSAGE: string := "MFA code required"
  const LOGIN_MESSAGE: string := "Login successful"
  const LOGOUT_MESSAGE: string := "Logout successful"
  const REFRESH_NOT_FOUND_MESSAGE: string := "Refresh token not found"
  const VERIFICATION_REQUIRED_MESSAGE: string := "Verification token is required"
  const MFA_CODE_REQUIRED_MESSAGE: string := "MFA code is required"
  const MFA_SETUP_MESSAGE: string := "Scan the QR code with your authenticator app and verify with a code"

  /** The four login failures that become 401. */
  predicate IsLoginRejection(message: string) {
    message == INVALID_CREDENTIALS_MESSAGE || message == DEACTIVATED_MESSAGE
    || message == UNVERIFIED_MESSAGE || message == INVALID_MFA_MESSAGE
  }

  /** The three refresh failures that clear the cookie. */
  predicate IsTokenRejection(message: string) {
    message == INVALID_REFRESH_MESSAGE || message == REVOKED_MESSAGE || message == EXPIRED_MESSAGE
  }

  function RefreshCookieOptions(config: CookieConfig): CookieOptions {
    CookieOptions(true, config.secure, config.sameSite, REFRESH_COOKIE_MAX_AGE_MS, config.domain)
  }

  /** Only the engine's own errors whose text cannot be any other message. */
  predicate Named(e: AuthError) {
    !e.MailFailure?
  }

  /** `register`: 400 on invalid input, 201 on success, 409 only for the duplicate-email text. */
  function RegisterHandler(validationErrors: seq<string>, result: Result<Registration, AuthError>): (h: Handled)
    ensures h.serviceCalled <==> validationErrors == []
    ensures validationErrors != [] ==> h.outcome == Respond(400, ValidationErrors(validationErrors))
    ensures validationErrors == [] && result.Ok? ==>
      h.outcome == Respond(201, RegisteredBody(result.value.user, result.value.message))
    ensures h.outcome.Reply? && h.outcome.status == 409 <==>
      validationErrors == [] && result.Err? && Message(result.error) == EMAIL_TAKEN_MESSAGE
    ensures validationErrors == [] && result.Err? && Named(result.error) ==>
      (h.outcome.Reply? <==> result.error == EmailTaken)
    ensures h.outcome.Reply? ==> h.outcome.cookie == NoCookieChange
  {
    if validationErrors != [] then
      Handled(Respond(400, ValidationErrors(validationErrors)), false)
    else match result
      case Ok(registration) =>
        Handled(Respond(201, RegisteredBody(registration.user, registration.message)), true)
      case Err(e) =>
        if Message(e) == EMAIL_TAKEN_MESSAGE then Handled(Respond(409, ErrorBody(Message(e))), true)
        else Handled(PassToErrorHandler(Message(e)), true)
  }

  /**
   * `login`: the step-up answer is 200 with the temporary token and no cookie; a full
   * login sets the httpOnly refresh cookie for 7 days and sends the user and the access
   * token only; exactly the four login failures are 401.
   */
  function LoginHandler(validationErrors: seq<string>, result: Result<AuthResponse, AuthError>,
                        config: CookieConfig): (h: Handled)
    ensures h.serviceCalled <==> validationErrors == []
    ensures validationErrors != [] ==> h.outcome == Respond(400, ValidationErrors(validationErrors))
    ensures (h.outcome.Reply? && h.outcome.cookie.SetRefreshCookie?) <==>
      validationErrors == [] && result.Ok? && result.value.Session?
    ensures h.outcome.Reply? && h.outcome.cookie.SetRefreshCookie? ==>
      && h.outcome.cookie.value == result.value.refreshToken
      && h.outcome.cookie.options.httpOnly
      && h.outcome.cookie.options.maxAgeMs == REFRESH_COOKIE_MAX_AGE_MS
      && h.outcome.status == 200
      && h.outcome.body == LoginBody(result.value.user, result.value.accessToken, LOGIN_MESSAGE)
    ensures validationErrors == [] && result.Ok? && result.value.MfaChallenge? ==>
      h.outcome == Respond(200, MfaRequiredBody(result.value.tempToken, MFA_REQUIRED_MESSAGE))
    ensures validationErrors == [] && result.Err? ==>
      && (h.outcome.Reply? <==> IsLoginRejection(Message(result.error)))
      && (h.outcome.Reply? ==> h.outcome == Respond(401, ErrorBody(Message(result.error))))
    ensures validationErrors == [] && result.Err? && Named(result.error) ==>
      (h.outcome.Reply? <==> result.error in {InvalidCredentials, AccountDeactivated, EmailNotVerified, InvalidMfaCode})
  {
    if validationErrors != [] then
      Handled(Respond(400, ValidationErrors(validationErrors)), false)
    else match result
      case Ok(MfaChallenge(_, tempToken)) =>
        Handled(Respond(200, MfaRequiredBody(tempToken, MFA_REQUIRED_MESSAGE)), true)
      case Ok(Session(user, accessToken, refreshToken)) =>
        Handled(Reply(200, LoginBody(user, accessToken, LOGIN_MESSAGE),
                      SetRefreshCookie(refreshToken, RefreshCookieOptions(config))), true)
      case Err(e) =>
        if IsLoginRejection(Message(e)) then Handled(Respond(401, ErrorBody(Message(e))), true)
        else Handled(PassToErrorHandler(Message(e)), true)
  }

  /**
   * `refresh`: without the cookie, 401 and no engine call. The three token failures clear
   * the cookie and answer 401; an inactive holder is not one of them and goes, with the
   * cookie kept, to the generic handler.
   */
  function RefreshHandler(cookie: Option<Jwt>, result: Result<Jwt, AuthError>): (h: Handled)
    ensures h.serviceCalled <==> cookie.Some?
    ensures cookie.None? ==> h.outcome == Respond(401, ErrorBody(REFRESH_NOT_FOUND_MESSAGE))
    ensures cookie.Some? && result.Ok? ==> h.outcome == Respond(200, AccessTokenBody(result.value))
    ensures (h.outcome.Reply? && h.outcome.cookie == ClearRefreshCookie) <==>
      cookie.Some? && result.Err? && IsTokenRejection(Message(result.error))
    ensures cookie.Some? && result.Err? ==>
      && (h.outcome.Reply? <==> IsTokenRejection(Message(result.error)))
      && (h.outcome.Reply? ==> h.outcome.status == 401 && h.outcome.body == ErrorBody(Message(result.error)))
    ensures cookie.Some? && result == Err(UserNotFoundOrInactive) ==> h.outcome == PassToErrorHandler(INACTIVE_MESSAGE)
  {
    match cookie
    case None => Handled(Respond(401, ErrorBody(REFRESH_NOT_FOUND_MESSAGE)), false)
    case Some(_) =>
      match result
      case Ok(accessToken) => Handled(Respond(200, AccessTokenBody(accessToken)), true)
      case Err(e) =>
        if IsTokenRejection(Message(e)) then Handled(Reply(401, ErrorBody(Message(e)), ClearRefreshCookie), true)
        else Handled(PassToErrorHandler(Message(e)), true)
  }

  /**
   * `logout`: the engine is called only when the cookie is present; unless that call
   * fails (a store error, `failure`), the cookie is cleared and the answer is 200.
   */
  function LogoutHandler(cookie: Option<Jwt>, failure: Option<string>): (h: Handled)
    ensures h.serviceCalled <==> cookie.Some?
    ensures h.outcome.PassToErrorHandler? <==> cookie.Some? && failure.Some?
    ensures h.outcome.Reply? ==> h.outcome == Reply(200, MessageBody(LOGOUT_MESSAGE), ClearRefreshCookie)
  {
    if cookie.Some? && failure.Some? then Handled(PassToErrorHandler(failure.value), true)
    else Handled(Reply(200, MessageBody(LOGOUT_MESSAGE), ClearRefreshCookie), cookie.Some?)
  }

  /** `verifyEmail`: a missing, empty or non-string token is 400 before any engine call. */
  function VerifyEmailHandler(token: QueryParam, result: Result<string, AuthError>): (h: Handled)
    ensures h.serviceCalled <==> token.Text? && token.value != ""
    ensures !h.serviceCalled ==> h.outcome == Respond(400, ErrorBody(VERIFICATION_REQUIRED_MESSAGE))
    ensures h.serviceCalled && result.Ok? ==> h.outcome == Respond(200, MessageBody(result.value))
    ensures h.serviceCalled && result.Err? ==>
      (h.outcome.Reply? <==> Message(result.error) == INVALID_VERIFICATION_MESSAGE)
    ensures h.outcome.Reply? ==> h.outcome.cookie == NoCookieChange
  {
    if !(token.Text? && token.value != "") then
      Handled(Respond(400, ErrorBody(VERIFICATION_REQUIRED_MESSAGE)), false)
    else match result
      case Ok(message) => Handled(Respond(200, MessageBody(message)), true)
      case Err(e) =>
        if Message(e) == INVALID_VERIFICATION_MESSAGE then Handled(Respond(400, ErrorBody(Message(e))), true)
        else Handled(PassToErrorHandler(Message(e)), true)
  }

  /** `forgotPassword`: 400 on invalid input, 200 on success, every error to the generic handler. */
  function ForgotPasswordHandler(validationErrors: seq<string>, result: Result<string, AuthError>): (h: Handled)
    ensures h.serviceCalled <==> validationErrors == []
    ensures validationErrors != [] ==> h.outcome == Respond(400, ValidationErrors(validationErrors))
    ensures validationErrors == [] ==>
      (h.outcome.Reply? <==> result.Ok?) && (result.Ok? ==> h.outcome == Respond(200, MessageBody(result.value)))
  {
    if validationErrors != [] then
      Handled(Respond(400, ValidationErrors(validationErrors)), false)
    else match result
      case Ok(message) => Handled(Respond(200, MessageBody(message)), true)
      case Err(e) => Handled(PassToErrorHandler(Message(e)), true)
  }

  /** `resetPassword`: 400 on invalid input or for the invalid-token text, 200 on success. */
  function ResetPasswordHandler(validationErrors: seq<string>, result: Result<string, AuthError>): (h: Handled)
    ensures h.serviceCalled <==> validationErrors == []
    ensures validationErrors != [] ==> h.outcome == Respond(400, ValidationErrors(validationErrors))
    ensures validationErrors == [] && result.Ok? ==> h.outcome == Respond(200, MessageBody(result.value))
    ensures validationErrors == [] && result.Err? ==>
      (h.outcome.Reply? <==> Message(result.error) == INVALID_RESET_MESSAGE)
      && (h.outcome.Reply? ==> h.outcome.status == 400)
  {
    if validationErrors != [] then
      Handled(Respond(400, ValidationErrors(validationErrors)), false)
    else match result
      case Ok(message) => Handled(Respond(200, MessageBody(message)), true)
      case Err(e) =>
        if Message(e) == INVALID_RESET_MESSAGE then Handled(Respond(400, ErrorBody(Message(e))), true)
        else Handled(PassToErrorHandler(Message(e)), true)
  }

  /** `enableMfa`: 401 without an authenticated caller; only 'MFA is already enabled' is 400. */
  function EnableMfaHandler(caller: Option<TokenPayload>, result: Result<MfaSetup, AuthError>): (h: Handled)
    ensures h.serviceCalled <==> caller.Some?
    ensures caller.None? ==> h.outcome == Respond(401, ErrorBody(AUTHENTICATION_REQUIRED))
    ensures caller.Some? && result.Ok? ==>
      h.outcome == Respond(200, MfaSetupBody(result.value.secret, result.value.backupCodes, MFA_SETUP_MESSAGE))
    ensures caller.Some? && result.Err? ==>
      (h.outcome.Reply? <==> Message(result.error) == MFA_ALREADY_ENABLED_MESSAGE)
      && (h.outcome.Reply? ==> h.outcome.status == 400)
    ensures caller.Some? && result == Err(UserNotFound) ==> h.outcome.PassToErrorHandler?
  {
    match caller
    case None => Handled(Respond(401, ErrorBody(AUTHENTICATION_REQUIRED)), false)
    case Some(_) =>
      match result
      case Ok(setup) => Handled(Respond(200, MfaSetupBody(setup.secret, setup.backupCodes, MFA_SETUP_MESSAGE)), true)
      case Err(e) =>
        if Message(e) == MFA_ALREADY_ENABLED_MESSAGE then Handled(Respond(400, ErrorBody(Message(e))), true)
        else Handled(PassToErrorHandler(Message(e)), true)
  }

  /** `verifyMfa`: the caller is checked before the input; the two MFA failures are 400. */
  function VerifyMfaHandler(caller: Option<TokenPayload>, validationErrors: seq<string>,
                            result: Result<string, AuthError>): (h: Handled)
    ensures h.serviceCalled <==> caller.Some? && validationErrors == []
    ensures caller.None? ==> h.outcome == Respond(401, ErrorBody(AUTHENTICATION_REQUIRED))
    ensures caller.Some? && validationErrors != [] ==> h.outcome == Respond(400, ValidationErrors(validationErrors))
    ensures h.serviceCalled && result.Ok? ==> h.outcome == Respond(200, MessageBody(result.value))
    ensures h.serviceCalled && result.Err? ==>
      (h.outcome.Reply? <==> Message(result.error) in {MFA_NOT_INITIATED_MESSAGE, INVALID_MFA_MESSAGE})
      && (h.outcome.Reply? ==> h.outcome.status == 400)
  {
    if caller.None? then Handled(Respond(401, ErrorBody(AUTHENTICATION_REQUIRED)), false)
    else if validationErrors != [] then Handled(Respond(400, ValidationErrors(validationErrors)), false)
    else match result
      case Ok(message) => Handled(Respond(200, MessageBody(message)), true)
      case Err(e) =>
        if Message(e) == MFA_NOT_INITIATED_MESSAGE || Message(e) == INVALID_MFA_MESSAGE then
          Handled(Respond(400, ErrorBody(Message(e))), true)
        else Handled(PassToErrorHandler(Message(e)), true)
  }

  /** `disableMfa`: 401 without a caller, 400 for a missing or empty code, the two MFA failures 400. */
  function DisableMfaHandler(caller: Option<TokenPayload>, code: Option<string>,
                             result: Result<string, AuthError>): (h: Handled)
    ensures h.serviceCalled <==> caller.Some? && Truthy(code)
    ensures caller.None? ==> h.outcome == Respond(401, ErrorBody(AUTHENTICATION_REQUIRED))
    ensures caller.Some? && !Truthy(code) ==> h.outcome == Respond(400, ErrorBody(MFA_CODE_REQUIRED_MESSAGE))
    ensures h.serviceCalled && result.Ok? ==> h.outcome == Respond(200, MessageBody(result.value))
    ensures h.serviceCalled && result.Err? ==>
      (h.outcome.Reply? <==> Message(result.error) in {MFA_NOT_ENABLED_MESSAGE, INVALID_MFA_MESSAGE})
      && (h.outcome.Reply? ==> h.outcome.status == 400)
  {
    if caller.None? then Handled(Respond(401, ErrorBody(AUTHENTICATION_REQUIRED)), false)
    else if !Truthy(code) then Handled(Respond(400, ErrorBody(MFA_CODE_REQUIRED_MESSAGE)), false)
    else match result
      case Ok(message) => Handled(Respond(200, MessageBody(message)), true)
      case Err(e) =>
        if Message(e) == MFA_NOT_ENABLED_MESSAGE || Message(e) == INVALID_MFA_MESSAGE then
          Handled(Respond(400, ErrorBody(Message(e))), true)
        else Handled(PassToErrorHandler(Message(e)), true)
  }
}

=== FILE: auth_middleware.dfy ===
/**
 * The bearer-token gate in front of protected routes. The access-token verifier is a
 * parameter: it yields the decoded claims, or nothing when it would throw.
 */
module AuthMiddleware {

  import opened Wrappers
  import opened Roles
  import opened Codec
  import opened Http

  const BEARER_PREFIX: string := "Bearer "
  const NO_TOKEN_MESSAGE: string := "No token provided"
  const INVALID_TOKEN_MESSAGE: string := "Invalid or expired token"
  const INSUFFICIENT_PERMISSIONS: string := "Insufficient permissions"

  type AccessVerifier = string -> Option<Claims>

  /** `startsWith('Bearer ')`: exact and case-sensitive. */
  predicate HasBearerPrefix(header: string) {
    |header| >= |BEARER_PREFIX| && header[..|BEARER_PREFIX|] == BEARER_PREFIX
  }

  /** `startsWith('Bearer ')` holds exactly for the headers that are the prefix followed by some token. */
  lemma StartsWithBearer(header: string)
    ensures HasBearerPrefix(header) <==> exists token :: header == BEARER_PREFIX + token
  {
    if HasBearerPrefix(header) {
      assert header == BEARER_PREFIX + header[|BEARER_PREFIX|..];
    }
    if exists token :: header == BEARER_PREFIX + token {
      var token :| header == BEARER_PREFIX + token;
      assert header[..|BEARER_PREFIX|] == BEARER_PREFIX;
    }
  }

  /** `substring(7)`: the header without its first seven characters. */
  function BearerToken(header: string): (token: string)
    requires HasBearerPrefix(header)
    ensures BEARER_PREFIX + token == header
  {
    header[|BEARER_PREFIX|..]
  }

  /** Prefixing a token and then taking it back out gives the token. */
  lemma BearerRoundTrip(token: string)
    ensures HasBearerPrefix(BEARER_PREFIX + token)
    ensures BearerToken(BEARER_PREFIX + token) == token
  {
    assert (BEARER_PREFIX + token)[..|BEARER_PREFIX|] == BEARER_PREFIX;
  }

  /** The scheme name is matched case-sensitively, so a lower-case `bearer ` is refused. */
  lemma LowerCaseSchemeRefused(token: string)
    ensures !HasBearerPrefix("bearer " + token)
  {
    assert ("bearer " + token)[0] == 'b';
  }

  /** The middleware's verdict: stop with a response, or go on with the request's user. */
  datatype Passage = Halt(reply: Outcome) | Proceed(user: Option<TokenPayload>)

  /**
   * `authenticate`: 401 'No token provided' unless the header carries the bearer prefix;
   * 401 'Invalid or expired token' when the verifier refuses what follows it; otherwise
   * the request goes on with exactly the decoded user id, email and roles.
   */
  function Authenticate(header: Option<string>, verify: AccessVerifier): (p: Passage)
    ensures p == Halt(Respond(401, ErrorBody(NO_TOKEN_MESSAGE))) <==>
      header.None? || !HasBearerPrefix(header.value)
    ensures header.Some? && HasBearerPrefix(header.value) ==>
      var decoded := verify(BearerToken(header.value));
      && (decoded.None? ==> p == Halt(Respond(401, ErrorBody(INVALID_TOKEN_MESSAGE))))
      && (decoded.Some? ==> p == Proceed(Some(decoded.value.payload)))
    ensures p.Proceed? ==> p.user.Some?
  {
    if header.None? || !HasBearerPrefix(header.value) then
      Halt(Respond(401, ErrorBody(NO_TOKEN_MESSAGE)))
    else
      match verify(BearerToken(header.value))
      case None => Halt(Respond(401, ErrorBody(INVALID_TOKEN_MESSAGE)))
      case Some(decoded) => Proceed(Some(decoded.payload))
  }

  /**
   * `optionalAuthenticate`: never answers; replaces the request's user only when the
   * prefix matches and the verifier accepts, and otherwise leaves it as it was.
   */
  function OptionalAuthenticate(header: Option<string>, verify: AccessVerifier,
                                current: Option<TokenPayload>): (p: Passage)
    ensures p.Proceed?
    ensures p.user != current ==>
      header.Some? && HasBearerPrefix(header.value) && verify(BearerToken(header.value)).Some?
    ensures header.Some? && HasBearerPrefix(header.value) && verify(BearerToken(header.value)).Some? ==>
      p.user == Some(verify(BearerToken(header.value)).value.payload)
  {
    if header.Some? && HasBearerPrefix(header.value) then
      match verify(BearerToken(header.value))
      case None => Proceed(current)
      case Some(decoded) => Proceed(Some(decoded.payload))
    else Proceed(current)
  }

  /** Both gates agree whenever the strict one lets the request through. */
  lemma OptionalAgreesWithStrict(header: Option<string>, verify: AccessVerifier, current: Option<TokenPayload>)
    ensures Authenticate(header, verify).Proceed? ==>
      OptionalAuthenticate(header, verify, current) == Authenticate(header, verify)
    ensures Authenticate(header, verify).Halt? ==>
      OptionalAuthenticate(header, verify, current) == Proceed(current)
  {
  }

  /**
   * An access token minted by the engine, presented under the bearer scheme to a
   * verifier that decodes it, admits exactly the user it was minted for.
   */
  lemma MintedTokenAdmitsItsUser(cfg: JwtConfig, payload: TokenPayload, mintedAt: int, now: int,
                                 encoded: string, verify: AccessVerifier)
    requires verify(encoded) == Verify(cfg, AccessAudience, Mint(cfg, AccessAudience, payload, mintedAt), now)
    requires Seconds(now) < Seconds(mintedAt) + cfg.accessTtl
    ensures Authenticate(Some(BEARER_PREFIX + encoded), verify) == Proceed(Some(payload))
  {
    BearerRoundTrip(encoded);
  }

  function RolesOf(user: Option<TokenPayload>): Option<seq<Role>> {
    if user.Some? then Some(user.value.roles) else None
  }

  /**
   * `checkRole(...allowed)` as a request gate: 401 without a user, 403 with both role
   * lists when the user holds none of the allowed roles, and otherwise the request goes
   * on with its user unchanged.
   */
  function RoleCheck(user: Option<TokenPayload>, allowed: seq<Role>): (p: Passage)
    ensures user.None? ==> p == Halt(Respond(401, ErrorBody(AUTHENTICATION_REQUIRED)))
    ensures user.Some? ==>
      (p == Proceed(user) <==> exists r :: r in user.value.roles && r in allowed)
    ensures user.Some? && p != Proceed(user) ==>
      p == Halt(Respond(403, ForbiddenBody(INSUFFICIENT_PERMISSIONS, allowed, user.value.roles)))
  {
    match CheckRole(RolesOf(user), allowed)
    case Next => Proceed(user)
    case Unauthenticated => Halt(Respond(401, ErrorBody(AUTHENTICATION_REQUIRED)))
    case Forbidden(required, current) => Halt(Respond(403, ForbiddenBody(INSUFFICIENT_PERMISSIONS, required, current)))
  }

  /**
   * The admin-only chain `authenticate, isAdmin`: a request gets through exactly when it
   * carries a bearer token the verifier accepts and whose roles include ADMIN.
   */
  lemma AdminChain(header: Option<string>, verify: AccessVerifier)
    ensures (Authenticate(header, verify).Proceed? && RoleCheck(Authenticate(header, verify).user, [ADMIN]).Proceed?)
      <==> header.Some? && HasBearerPrefix(header.value) && verify(BearerToken(header.value)).Some?
           && ADMIN in verify(BearerToken(header.value)).value.payload.roles
  {
  }
}

=== FILE: auth_service.dfy ===
/**
 * The authentication and session engine: registration, login with MFA step-up, access-token
 * refresh, logout, email verification, password recovery and the MFA lifecycle.
 *
 * Each operation is one sequential, atomic call against the credential store. The clock
 * (`now`, milliseconds), random tokens and secrets, the bcrypt salt, the mail transport's
 * verdict and the authenticator library are inputs.
 */
module Auth {

  import opened Wrappers
  import opened Roles
  import opened Codec
  import opened Totp
  import opened Entities
  import opened Store

  /** The errors the engine throws, one per distinct message. */
  datatype AuthError =
    | EmailTaken
    | InvalidCredentials
    | AccountDeactivated
    | EmailNotVerified
    | InvalidMfaCode
    | InvalidRefreshToken
    | RefreshTokenRevoked
    | RefreshTokenExpired
    | UserNotFoundOrInactive
    | InvalidVerificationToken
    | InvalidResetToken
    | UserNotFound
    | MfaAlreadyEnabled
    | MfaSetupNotInitiated
    | MfaNotEnabled
    | MailFailure(reason: string)     // the transport's own error, passed through
    | DuplicateRefreshToken           // unique-constraint violation on the token digest

  const EMAIL_TAKEN_MESSAGE: string := "User with this email already exists"
  const INVALID_CREDENTIALS_MESSAGE: string := "Invalid credentials"
  const DEACTIVATED_MESSAGE: string := "Account has been deactivated"
  const UNVERIFIED_MESSAGE: string := "Please verify your email before logging in"
  const INVALID_MFA_MESSAGE: string := "Invalid MFA code"
  const INVALID_REFRESH_MESSAGE: string := "Invalid refresh token"
  const REVOKED_MESSAGE: string := "Refresh token has been revoked"
  const EXPIRED_MESSAGE: string := "Refresh token has expired"
  const INACTIVE_MESSAGE: string := "User not found or inactive"
  const INVALID_VERIFICATION_MESSAGE: string := "Invalid or expired verification token"
  const INVALID_RESET_MESSAGE: string := "Invalid or expired reset token"
  const USER_NOT_FOUND_MESSAGE: string := "User not found"
  const MFA_ALREADY_ENABLED_MESSAGE: string := "MFA is already enabled"
  const MFA_NOT_INITIATED_MESSAGE: string := "MFA setup not initiated"
  const MFA_NOT_ENABLED_MESSAGE: string := "MFA is not enabled"
  const DUPLICATE_TOKEN_MESSAGE: string := "Unique constraint failed on the fields: (`hashedToken`)"

  /** The text of the thrown error, which is all the controllers look at. */
  function Message(e: AuthError): string {
    match e
    case EmailTaken => EMAIL_TAKEN_MESSAGE
    case InvalidCredentials => INVALID_CREDENTIALS_MESSAGE
    case AccountDeactivated => DEACTIVATED_MESSAGE
    case EmailNotVerified => UNVERIFIED_MESSAGE
    case InvalidMfaCode => INVALID_MFA_MESSAGE
    case InvalidRefreshToken => INVALID_REFRESH_MESSAGE
    case RefreshTokenRevoked => REVOKED_MESSAGE
    case RefreshTokenExpired => EXPIRED_MESSAGE
    case UserNotFoundOrInactive => INACTIVE_MESSAGE
    case InvalidVerificationToken => INVALID_VERIFICATION_MESSAGE
    case InvalidResetToken => INVALID_RESET_MESSAGE
    case UserNotFound => USER_NOT_FOUND_MESSAGE
    case MfaAlreadyEnabled => MFA_ALREADY_ENABLED_MESSAGE
    case MfaSetupNotInitiated => MFA_NOT_INITIATED_MESSAGE
    case MfaNotEnabled => MFA_NOT_ENABLED_MESSAGE
    case MailFailure(reason) => reason
    case DuplicateRefreshToken => DUPLICATE_TOKEN_MESSAGE
  }

  const VERIFICATION_TTL_MS: int := 24 * 60 * 60 * 1000
  const RESET_TTL_MS: int := 60 * 60 * 1000
  const REFRESH_ROW_TTL_MS: int := 7 * 24 * 60 * 60 * 1000

  const REGISTERED_MESSAGE: string := "Registration successful. Please check your email to verify your account."
  const RESET_REQUESTED_MESSAGE: string := "If the email exists, a reset link has been sent"
  const EMAIL_VERIFIED_MESSAGE: string := "Email verified successfully"
  const PASSWORD_RESET_MESSAGE: string := "Password reset successfully"
  const MFA_ENABLED_MESSAGE: string := "MFA enabled successfully"
  const MFA_DISABLED_MESSAGE: string := "MFA disabled successfully"

  datatype Registration = Registration(user: PublicUser, message: string)

  /** A completed login, or the step-up answer (whose access token is empty, modelled as absent). */
  datatype AuthResponse =
    | Session(user: PublicUser, accessToken: Jwt, refreshToken: Jwt)
    | MfaChallenge(user: PublicUser, tempToken: string)

  /** What enrolment hands back once: the secret and the backup codes in clear. */
  datatype MfaSetup = MfaSetup(secret: string, backupCodes: seq<string>)

  /** The row `register` creates: pending verification, active, MFA off, role USER. */
  function NewUser(id: UserId, email: string, password: PasswordHash, firstName: Option<string>,
                   lastName: Option<string>, verificationToken: string, now: int): User
  {
    User(id, email, password, firstName, lastName, [USER], false, true, false, None, [],
         Some(verificationToken), Some(now + VERIFICATION_TTL_MS), None, None, None, now)
  }

  predicate TotpAccepts(totp: Authenticator, code: string, secret: Option<string>) {
    secret.Some? && VerifyToken(totp, code, secret.value)
  }

  /** Where a login attempt for an existing user stops. */
  datatype LoginStep = Deactivated | WrongPassword | Unverified | NeedsMfaCode | WrongMfaCode | Authenticated

  /**
   * The order of the login checks: deactivation is reported whatever the password, a
   * wrong password before anything about verification or MFA, and MFA is consulted only
   * for a verified user with the right password.
   */
  function LoginGate(u: User, password: string, totpCode: Option<string>, totp: Authenticator): (step: LoginStep)
    ensures step == Deactivated <==> !u.isActive
    ensures step == WrongPassword <==> u.isActive && !ComparePassword(password, u.password)
    ensures step == Unverified <==>
      u.isActive && ComparePassword(password, u.password) && !u.isEmailVerified
    ensures step == NeedsMfaCode <==>
      u.isActive && ComparePassword(password, u.password) && u.isEmailVerified
      && u.isMfaEnabled && !Truthy(totpCode)
    ensures step == WrongMfaCode <==>
      u.isActive && ComparePassword(password, u.password) && u.isEmailVerified
      && u.isMfaEnabled && Truthy(totpCode) && !TotpAccepts(totp, totpCode.value, u.mfaSecret)
    ensures step == Authenticated <==>
      u.isActive && ComparePassword(password, u.password) && u.isEmailVerified
      && (u.isMfaEnabled ==> Truthy(totpCode) && TotpAccepts(totp, totpCode.value, u.mfaSecret))
  {
    if !u.isActive then Deactivated
    else if !ComparePassword(password, u.password) then WrongPassword
    else if !u.isEmailVerified then Unverified
    else if u.isMfaEnabled && !Truthy(totpCode) then NeedsMfaCode
    else if u.isMfaEnabled && !TotpAccepts(totp, totpCode.value, u.mfaSecret) then WrongMfaCode
    else Authenticated
  }

  /** `findFirst({emailVerificationToken: token, emailVerificationExpiry: {gte: now}})` */
  predicate VerificationMatches(u: User, token: string, now: int) {
    u.emailVerificationToken == Some(token)
    && u.emailVerificationExpiry.Some? && u.emailVerificationExpiry.value >= now
  }

  /** `findFirst({passwordResetToken: token, passwordResetExpiry: {gte: now}})` */
  predicate ResetMatches(u: User, token: string, now: int) {
    u.passwordResetToken == Some(token)
    && u.passwordResetExpiry.Some? && u.passwordResetExpiry.value >= now
  }

  function MarkVerified(u: User): User {
    u.(isEmailVerified := true, emailVerificationToken := None, emailVerificationExpiry := None)
  }

  function WithNewPassword(u: User, password: PasswordHash): User {
    u.(password := password, passwordResetToken := None, passwordResetExpiry := None)
  }

  class AuthService {
    const db: CredentialStore
    const mailer: Mailer
    const jwt: JwtConfig
    const backendUrl: string

    constructor (db: CredentialStore, mailer: Mailer, jwt: JwtConfig, backendUrl: string)
      ensures this.db == db && this.mailer == mailer && this.jwt == jwt && this.backendUrl == backendUrl
    {
      this.db := db;
      this.mailer := mailer;
      this.jwt := jwt;
      this.backendUrl := backendUrl;
    }

    /**
     * `register`. An email already stored (compared exactly) is refused with nothing
     * written. Otherwise the user row is created first; the verification mail is sent
     * next, and if the transport refuses it the row stays, no audit entry is written and
     * the transport's error is thrown. Only then is USER_REGISTERED appended.
     */
    method Register(email: string, password: string, firstName: Option<string>, lastName: Option<string>,
                    newId: UserId, verificationToken: string, salt: string, now: int, delivery: Delivery)
      returns (r: Result<Registration, AuthError>)
      requires db.Valid() && newId !in db.users
      modifies db, mailer
      ensures db.Valid()
      ensures email in old(db.byEmail) ==> r == Err(EmailTaken) && unchanged(db) && unchanged(mailer)
      ensures email !in old(db.byEmail) ==>
        var u := NewUser(newId, email, HashPassword(password, salt), firstName, lastName, verificationToken, now);
        && db.users == old(db.users)[newId := u]
        && db.byEmail == old(db.byEmail)[email := newId]
        && db.refreshTokens == old(db.refreshTokens)
        && (delivery.Delivered? ==>
              && mailer.sent == old(mailer.sent) + [Mail(email, VerificationMail, TokenLink(backendUrl, VERIFY_EMAIL_PATH, verificationToken))]
              && db.audit == old(db.audit) + [AuditEntry(newId, USER_REGISTERED, USER_RESOURCE, None, None, true)]
              && r == Ok(Registration(SanitizeUser(u), REGISTERED_MESSAGE)))
        && (delivery.Undeliverable? ==>
              mailer.sent == old(mailer.sent) && db.audit == old(db.audit) && r == Err(MailFailure(delivery.reason)))
    {
      var existing := db.FindByEmail(email);
      if existing.Some? {
        return Err(EmailTaken);
      }
      var user := NewUser(newId, email, HashPassword(password, salt), firstName, lastName, verificationToken, now);
      db.CreateUser(user);
      var failure := mailer.Send(Mail(email, VerificationMail, TokenLink(backendUrl, VERIFY_EMAIL_PATH, verificationToken)), delivery);
      if failure.Some? {
        return Err(MailFailure(failure.value));
      }
      db.AppendAudit(AuditEntry(newId, USER_REGISTERED, USER_RESOURCE, None, None, true));
      r := Ok(Registration(SanitizeUser(user), REGISTERED_MESSAGE));
    }

    /**
     * `login`. An unknown email fails with no audit entry; a wrong password fails with
     * exactly one LOGIN_FAILED entry; the step-up answer writes nothing and carries a
     * temporary token that is never stored. A full login stores one unrevoked row for the
     * digest of the returned refresh token (7 days), stamps lastLoginAt and appends
     * USER_LOGIN; the user it returns is the row as read, before the stamp.
     */
    method Login(email: string, password: string, totpCode: Option<string>,
                 ipAddress: Option<string>, userAgent: Option<string>,
                 now: int, tempToken: string, totp: Authenticator)
      returns (r: Result<AuthResponse, AuthError>)
      requires db.Valid()
      modifies db
      ensures db.Valid()
      ensures db.byEmail == old(db.byEmail)
      ensures email !in old(db.byEmail) ==> r == Err(InvalidCredentials) && unchanged(db)
      ensures email in old(db.byEmail) ==>
        var u := old(db.users[db.byEmail[email]]);
        var step := LoginGate(u, password, totpCode, totp);
        && (step == Deactivated ==> r == Err(AccountDeactivated) && unchanged(db))
        && (step == WrongPassword ==>
              && r == Err(InvalidCredentials)
              && db.audit == old(db.audit) + [AuditEntry(u.id, LOGIN_FAILED, AUTH_RESOURCE, ipAddress, userAgent, false)]
              && db.users == old(db.users) && db.refreshTokens == old(db.refreshTokens))
        && (step == Unverified ==> r == Err(EmailNotVerified) && unchanged(db))
        && (step == NeedsMfaCode ==> r == Ok(MfaChallenge(SanitizeUser(u), tempToken)) && unchanged(db))
        && (step == WrongMfaCode ==> r == Err(InvalidMfaCode) && unchanged(db))
        && (step == Authenticated ==>
              var refresh := Mint(jwt, RefreshAudience, PayloadOf(u), now);
              var h := HashToken(refresh);
              if h in old(db.refreshTokens) then
                r == Err(DuplicateRefreshToken) && unchanged(db)
              else
                && r == Ok(Session(SanitizeUser(u), Mint(jwt, AccessAudience, PayloadOf(u), now), refresh))
                && db.refreshTokens == old(db.refreshTokens)[h := RefreshRow(h, u.id, now + REFRESH_ROW_TTL_MS, false, None, userAgent, ipAddress)]
                && db.users == old(db.users)[u.id := u.(lastLoginAt := Some(now))]
                && db.audit == old(db.audit) + [AuditEntry(u.id, USER_LOGIN, AUTH_RESOURCE, ipAddress, userAgent, true)])
    {
      var found := db.FindByEmail(email);
      if found.None? {
        return Err(InvalidCredentials);
      }
      var user := found.value;
      if !user.isActive {
        return Err(AccountDeactivated);
      }
      if !ComparePassword(password, user.password) {
        db.AppendAudit(AuditEntry(user.id, LOGIN_FAILED, AUTH_RESOURCE, ipAddress, userAgent, false));
        return Err(InvalidCredentials);
      }
      if !user.isEmailVerified {
        return Err(EmailNotVerified);
      }
      if user.isMfaEnabled {
        if !Truthy(totpCode) {
          return Ok(MfaChallenge(SanitizeUser(user), tempToken));
        }
        if !TotpAccepts(totp, totpCode.value, user.mfaSecret) {
          return Err(InvalidMfaCode);
        }
      }
      var accessToken := Mint(jwt, AccessAudience, PayloadOf(user), now);
      var refreshToken := Mint(jwt, RefreshAudience, PayloadOf(user), now);
      var h := HashToken(refreshToken);
      var created := db.CreateRefreshToken(RefreshRow(h, user.id, now + REFRESH_ROW_TTL_MS, false, None, userAgent, ipAddress));
      if !created {
        return Err(DuplicateRefreshToken);
      }
      db.UpdateUser(user.(lastLoginAt := Some(now)));
      db.AppendAudit(AuditEntry(user.id, USER_LOGIN, AUTH_RESOURCE, ipAddress, userAgent, true));
      r := Ok(Session(SanitizeUser(user), accessToken, refreshToken));
    }

    /** The presented token is a genuine, unexpired refresh token. */
    predicate TokenVerifies(token: Jwt, now: int) {
      Verify(jwt, RefreshAudience, token, now).Some?
    }

    /** A stored, unrevoked row exists for the token's digest. */
    predicate RowLive(token: Jwt)
      reads db
    {
      HashToken(token) in db.refreshTokens && !db.refreshTokens[HashToken(token)].isRevoked
    }

    predicate RowExpired(token: Jwt, now: int)
      reads db
      requires RowLive(token)
    {
      db.refreshTokens[HashToken(token)].expiresAt < now
    }

    /** The user named in the token exists and is active. */
    predicate HolderActive(token: Jwt)
      reads db
    {
      token.claims.payload.userId in db.users && db.users[token.claims.payload.userId].isActive
    }

    predicate RefreshAllowed(token: Jwt, now: int)
      reads db
    {
      TokenVerifies(token, now) && RowLive(token) && !RowExpired(token, now) && HolderActive(token)
    }

    /**
     * `refreshAccessToken`. Succeeds exactly when the token verifies, its row is live and
     * not past `expiresAt` (a row expiring at `now` still works), and its user is active;
     * the checks are made in that order and the first to fail names the error. The store
     * is only read, and only a new access token is returned: the refresh token is not rotated.
     */
    method RefreshAccessToken(token: Jwt, now: int) returns (r: Result<Jwt, AuthError>)
      requires db.Valid()
      ensures r.Ok? <==> RefreshAllowed(token, now)
      ensures r.Ok? ==> r.value == Mint(jwt, AccessAudience, PayloadOf(db.users[token.claims.payload.userId]), now)
      ensures r == Err(InvalidRefreshToken) <==> !TokenVerifies(token, now)
      ensures r == Err(RefreshTokenRevoked) <==> TokenVerifies(token, now) && !RowLive(token)
      ensures r == Err(RefreshTokenExpired) <==>
        TokenVerifies(token, now) && RowLive(token) && RowExpired(token, now)
      ensures r == Err(UserNotFoundOrInactive) <==>
        TokenVerifies(token, now) && RowLive(token) && !RowExpired(token, now) && !HolderActive(token)
    {
      var decoded := Verify(jwt, RefreshAudience, token, now);
      if decoded.None? {
        return Err(InvalidRefreshToken);
      }
      var h := HashToken(token);
      if h !in db.refreshTokens || db.refreshTokens[h].isRevoked {
        return Err(RefreshTokenRevoked);
      }
      if db.refreshTokens[h].expiresAt < now {
        return Err(RefreshTokenExpired);
      }
      var userId := decoded.value.payload.userId;
      if userId !in db.users || !db.users[userId].isActive {
        return Err(UserNotFoundOrInactive);
      }
      r := Ok(Mint(jwt, AccessAudience, PayloadOf(db.users[userId]), now));
    }

    /**
     * `logout`: revokes the row for the token's digest, if any, and never fails. Afterwards
     * the token cannot refresh at any time.
     */
    method Logout(token: Jwt, now: int)
      requires db.Valid()
      modifies db
      ensures db.Valid()
      ensures db.refreshTokens == RevokeByHash(old(db.refreshTokens), HashToken(token), now)
      ensures db.users == old(db.users) && db.byEmail == old(db.byEmail) && db.audit == old(db.audit)
      ensures !RowLive(token) && forall n :: !RefreshAllowed(token, n)
    {
      db.RevokeTokensByHash(HashToken(token), now);
    }

    /**
     * `verifyEmail`: some user whose verification token matches and has not expired
     * (`expiry >= now`) is marked verified and loses the token and expiry; with no such
     * user nothing is written.
     */
    method VerifyEmail(token: string, now: int) returns (r: Result<string, AuthError>)
      requires db.Valid()
      modifies db
      ensures db.Valid()
      ensures db.byEmail == old(db.byEmail) && db.refreshTokens == old(db.refreshTokens) && db.audit == old(db.audit)
      ensures r.Err? <==> forall id :: id in old(db.users) ==> !VerificationMatches(old(db.users[id]), token, now)
      ensures r.Err? ==> r.error == InvalidVerificationToken && db.users == old(db.users)
      ensures r.Ok? ==>
        && r.value == EMAIL_VERIFIED_MESSAGE
        && exists id :: (id in old(db.users) && VerificationMatches(old(db.users[id]), token, now)
                         && db.users == old(db.users)[id := MarkVerified(old(db.users[id]))])
    {
      if forall id :: id in db.users ==> !VerificationMatches(db.users[id], token, now) {
        return Err(InvalidVerificationToken);
      }
      var id :| id in db.users && VerificationMatches(db.users[id], token, now);
      db.UpdateUser(MarkVerified(db.users[id]));
      r := Ok(EMAIL_VERIFIED_MESSAGE);
    }

    /**
     * `forgotPassword`: the same message whether or not the email is stored. For a stored
     * user a reset token valid for one hour is written first and the reset mail sent after;
     * a refused mail leaves the token stored and surfaces the transport's error.
     */
    method ForgotPassword(email: string, resetToken: string, now: int, delivery: Delivery)
      returns (r: Result<string, AuthError>)
      requires db.Valid()
      modifies db, mailer
      ensures db.Valid()
      ensures db.byEmail == old(db.byEmail) && db.refreshTokens == old(db.refreshTokens) && db.audit == old(db.audit)
      ensures r.Ok? ==> r.value == RESET_REQUESTED_MESSAGE
      ensures email !in old(db.byEmail) ==> r.Ok? && unchanged(db) && unchanged(mailer)
      ensures email in old(db.byEmail) ==>
        var u := old(db.users[db.byEmail[email]]);
        && db.users == old(db.users)[u.id := u.(passwordResetToken := Some(resetToken), passwordResetExpiry := Some(now + RESET_TTL_MS))]
        && (delivery.Delivered? ==>
              r.Ok? && mailer.sent == old(mailer.sent) + [Mail(email, PasswordResetMail, TokenLink(backendUrl, RESET_PASSWORD_PATH, resetToken))])
        && (delivery.Undeliverable? ==> r == Err(MailFailure(delivery.reason)) && mailer.sent == old(mailer.sent))
    {
      var found := db.FindByEmail(email);
      if found.None? {
        return Ok(RESET_REQUESTED_MESSAGE);
      }
      var user := found.value;
      db.UpdateUser(user.(passwordResetToken := Some(resetToken), passwordResetExpiry := Some(now + RESET_TTL_MS)));
      var failure := mailer.Send(Mail(user.email, PasswordResetMail, TokenLink(backendUrl, RESET_PASSWORD_PATH, resetToken)), delivery);
      if failure.Some? {
        return Err(MailFailure(failure.value));
      }
      r := Ok(RESET_REQUESTED_MESSAGE);
    }

    /**
     * `resetPassword`: for some user whose reset token matches and has not expired, the
     * password is replaced and the token and expiry cleared, and then every refresh row of
     * that user, and of no other user, is revoked. With no such user nothing is written.
     */
    method ResetPassword(token: string, newPassword: string, salt: string, now: int)
      returns (r: Result<string, AuthError>)
      requires db.Valid()
      modifies db
      ensures db.Valid()
      ensures db.byEmail == old(db.byEmail) && db.audit == old(db.audit)
      ensures r.Err? <==> forall id :: id in old(db.users) ==> !ResetMatches(old(db.users[id]), token, now)
      ensures r.Err? ==> r.error == InvalidResetToken && unchanged(db)
      ensures r.Ok? ==>
        && r.value == PASSWORD_RESET_MESSAGE
        && exists id :: (id in old(db.users) && ResetMatches(old(db.users[id]), token, now)
                         && db.users == old(db.users)[id := WithNewPassword(old(db.users[id]), HashPassword(newPassword, salt))]
                         && db.refreshTokens == RevokeForUser(old(db.refreshTokens), id, now))
    {
      if forall id :: id in db.users ==> !ResetMatches(db.users[id], token, now) {
        return Err(InvalidResetToken);
      }
      var id :| id in db.users && ResetMatches(db.users[id], token, now);
      db.UpdateUser(WithNewPassword(db.users[id], HashPassword(newPassword, salt)));
      db.RevokeTokensOfUser(id, now);
      r := Ok(PASSWORD_RESET_MESSAGE);
    }

    /**
     * `enableMfa`: for a user without MFA, stores the new secret and the digests of ten
     * fresh backup codes, replacing any pending enrolment, and leaves MFA switched off
     * until a code is verified. The codes are returned in clear only here.
     */
    method EnableMfa(userId: UserId, secret: string, draw: nat -> Word) returns (r: Result<MfaSetup, AuthError>)
      requires db.Valid()
      modifies db
      ensures db.Valid()
      ensures db.byEmail == old(db.byEmail) && db.refreshTokens == old(db.refreshTokens) && db.audit == old(db.audit)
      ensures userId !in old(db.users) ==> r == Err(UserNotFound) && unchanged(db)
      ensures userId in old(db.users) && old(db.users[userId]).isMfaEnabled ==>
        r == Err(MfaAlreadyEnabled) && unchanged(db)
      ensures userId in old(db.users) && !old(db.users[userId]).isMfaEnabled ==>
        && r.Ok? && r.value.secret == secret
        && |r.value.backupCodes| == 10
        && (forall i :: 0 <= i < 10 ==> r.value.backupCodes[i] == BackupCode(draw(i)))
        && db.users == old(db.users)[userId := old(db.users[userId]).(mfaSecret := Some(secret), mfaBackupCodes := HashBackupCodes(r.value.backupCodes))]
    {
      if userId !in db.users {
        return Err(UserNotFound);
      }
      var user := db.users[userId];
      if user.isMfaEnabled {
        return Err(MfaAlreadyEnabled);
      }
      var codes := GenerateBackupCodes(draw);
      db.UpdateUser(user.(mfaSecret := Some(secret), mfaBackupCodes := HashBackupCodes(codes)));
      r := Ok(MfaSetup(secret, codes));
    }

    /**
     * `verifyMfa`: needs a user with a (non-empty) pending secret and a code the
     * authenticator accepts for it; then MFA is switched on and nothing else changes.
     */
    method VerifyMfa(userId: UserId, code: string, totp: Authenticator) returns (r: Result<string, AuthError>)
      requires db.Valid()
      modifies db
      ensures db.Valid()
      ensures db.byEmail == old(db.byEmail) && db.refreshTokens == old(db.refreshTokens) && db.audit == old(db.audit)
      ensures userId !in old(db.users) || !Truthy(old(db.users[userId]).mfaSecret) ==>
        r == Err(MfaSetupNotInitiated) && unchanged(db)
      ensures userId in old(db.users) && Truthy(old(db.users[userId]).mfaSecret) ==>
        var u := old(db.users[userId]);
        && (!VerifyToken(totp, code, u.mfaSecret.value) ==> r == Err(InvalidMfaCode) && unchanged(db))
        && (VerifyToken(totp, code, u.mfaSecret.value) ==>
              r == Ok(MFA_ENABLED_MESSAGE) && db.users == old(db.users)[userId := u.(isMfaEnabled := true)])
    {
      if userId !in db.users || !Truthy(db.users[userId].mfaSecret) {
        return Err(MfaSetupNotInitiated);
      }
      var user := db.users[userId];
      if !VerifyToken(totp, code, user.mfaSecret.value) {
        return Err(InvalidMfaCode);
      }
      db.UpdateUser(user.(isMfaEnabled := true));
      r := Ok(MFA_ENABLED_MESSAGE);
    }

    /**
     * `disableMfa`: needs MFA switched on and a code the authenticator accepts; then the
     * flag, the secret and the backup codes are all cleared.
     */
    method DisableMfa(userId: UserId, code: string, totp: Authenticator) returns (r: Result<string, AuthError>)
      requires db.Valid()
      modifies db
      ensures db.Valid()
      ensures db.byEmail == old(db.byEmail) && db.refreshTokens == old(db.refreshTokens) && db.audit == old(db.audit)
      ensures userId !in old(db.users) || !old(db.users[userId]).isMfaEnabled ==>
        r == Err(MfaNotEnabled) && unchanged(db)
      ensures userId in old(db.users) && old(db.users[userId]).isMfaEnabled ==>
        var u := old(db.users[userId]);
        && (!TotpAccepts(totp, code, u.mfaSecret) ==> r == Err(InvalidMfaCode) && unchanged(db))
        && (TotpAccepts(totp, code, u.mfaSecret) ==>
              r == Ok(MFA_DISABLED_MESSAGE)
              && db.users == old(db.users)[userId := u.(isMfaEnabled := false, mfaSecret := None, mfaBackupCodes := [])])
    {
      if userId !in db.users || !db.users[userId].isMfaEnabled {
        return Err(MfaNotEnabled);
      }
      var user := db.users[userId];
      if !TotpAccepts(totp, code, user.mfaSecret) {
        return Err(InvalidMfaCode);
      }
      db.UpdateUser(user.(isMfaEnabled := false, mfaSecret := None, mfaBackupCodes := []));
      r := Ok(MFA_DISABLED_MESSAGE);
    }
  }
}

=== FILE: codec.dfy ===
/**
 * The token codec: signed, expiring, audience-scoped tokens, the SHA-256 digests the
 * store keeps instead of raw secrets, and the bcrypt password hash.
 *
 * Signatures and hashes are ideal: a token carries the key it was signed with, a digest is
 * an injective tag on its preimage, and a bcrypt hash names the key it was made from (the
 * first 72 bytes of the password's UTF-8 encoding). The model therefore proves, rather than
 * assumes, that a minted token verifies with its own payload until it expires and that
 * access and refresh tokens never verify as each other.
 */
module Codec {

  import opened Wrappers
  import opened Roles

  /** What a token asserts about its holder, and exactly what `req.user` receives. */
  datatype TokenPayload = TokenPayload(userId: string, email: string, roles: seq<Role>)

  /** The `aud` claim; access and refresh tokens also use different signing secrets. */
  datatype Audience = AccessAudience | RefreshAudience

  /** Registered and private claims; times are whole seconds, as jsonwebtoken writes them. */
  datatype Claims = Claims(payload: TokenPayload, issuer: string, audience: Audience, issuedAt: int, expiresAt: int)

  /** A signed token; `key` is the secret whose signature it carries. */
  datatype Jwt = Jwt(claims: Claims, key: string)

  /**
   * The signing configuration: one secret and one lifetime (`expiresIn`, in seconds) per
   * audience, and the issuer (the app name). Unless configured otherwise the lifetimes are
   * 15 minutes for access tokens and 7 days for refresh tokens.
   */
  datatype JwtConfig = JwtConfig(accessSecret: string, refreshSecret: string, issuer: string,
                                 accessTtl: int, refreshTtl: int)

  /** `Math.floor(ms / 1000)`; Dafny's division by a positive divisor already floors. */
  function Seconds(ms: int): int {
    ms / 1000
  }

  function SecretFor(cfg: JwtConfig, aud: Audience): string {
    match aud
    case AccessAudience => cfg.accessSecret
    case RefreshAudience => cfg.refreshSecret
  }

  function Lifetime(cfg: JwtConfig, aud: Audience): int {
    match aud
    case AccessAudience => cfg.accessTtl
    case RefreshAudience => cfg.refreshTtl
  }

  function Other(aud: Audience): Audience {
    match aud
    case AccessAudience => RefreshAudience
    case RefreshAudience => AccessAudience
  }

  /**
   * `jwt.verify(token, secret, {issuer, audience})`: the signature, issuer and audience must
   * match and the token must not have expired (jsonwebtoken rejects once `now >= exp`).
   */
  function Verify(cfg: JwtConfig, aud: Audience, t: Jwt, nowMs: int): Option<Claims> {
    if t.key == SecretFor(cfg, aud) && t.claims.issuer == cfg.issuer
       && t.claims.audience == aud && Seconds(nowMs) < t.claims.expiresAt
    then Some(t.claims)
    else None
  }

  /** A token that verifies now verified at every earlier moment, with the same claims: once expired, always expired. */
  lemma VerifyMonotone(cfg: JwtConfig, aud: Audience, t: Jwt, earlier: int, later: int)
    requires earlier <= later && Verify(cfg, aud, t, later).Some?
    ensures Verify(cfg, aud, t, earlier) == Verify(cfg, aud, t, later)
  {
    SecondsMonotone(earlier, later);
  }

  lemma SecondsMonotone(a: int, b: int)
    requires a <= b
    ensures Seconds(a) <= Seconds(b)
  {
  }

  /** A token verifies under at most one audience, whatever the secrets and the times. */
  lemma VerifyOneAudience(cfg: JwtConfig, t: Jwt, aud1: Audience, n1: int, aud2: Audience, n2: int)
    requires Verify(cfg, aud1, t, n1).Some? && Verify(cfg, aud2, t, n2).Some?
    ensures aud1 == aud2
  {
  }

  /**
   * `generateAccessToken` / `generateRefreshToken`: sign the payload with the audience's
   * secret. The token verifies, with its own payload, exactly until its lifetime has passed,
   * and never verifies as a token of the other audience.
   */
  function Mint(cfg: JwtConfig, aud: Audience, payload: TokenPayload, nowMs: int): (t: Jwt)
    ensures forall n :: Verify(cfg, aud, t, n).Some? <==> Seconds(n) < Seconds(nowMs) + Lifetime(cfg, aud)
    ensures forall n :: Verify(cfg, aud, t, n).Some? ==> Verify(cfg, aud, t, n).value.payload == payload
    ensures forall n :: Verify(cfg, Other(aud), t, n).None?
  {
    var now := Seconds(nowMs);
    Jwt(Claims(payload, cfg.issuer, aud, now, now + Lifetime(cfg, aud)), SecretFor(cfg, aud))
  }

  /** A SHA-256 digest, modelled as an injective tag on what was hashed. */
  datatype Digest<T> = Sha256(preimage: T)

  /** `hashToken`: the refresh-token table is keyed by this digest, never by the token. */
  function HashToken(t: Jwt): Digest<Jwt> {
    Sha256(t)
  }

  /** The configured bcrypt cost factor (default 12). */
  const BCRYPT_ROUNDS: int := 12

  /** The most key bytes bcrypt reads; the rest of a longer password is ignored. */
  const BCRYPT_KEY_BYTES: int := 72

  /** The UTF-8 encoding of one character, as byte values. */
  function Utf8Char(c: char): (bytes: seq<int>)
    ensures 1 <= |bytes| <= 4
    ensures (|bytes| == 1) == (c as int < 0x80)
    ensures forall i :: 0 <= i < |bytes| ==> 0 <= bytes[i] < 256
    ensures c as int >= 0x80 ==> bytes[0] >= 0xC0
  {
    var n := c as int;
    if n < 0x80 then [n]
    else if n < 0x800 then [0xC0 + n / 64, 0x80 + n % 64]
    else if n < 0x10000 then [0xE0 + n / 4096, 0x80 + (n / 64) % 64, 0x80 + n % 64]
    else [0xF0 + n / 262144, 0x80 + (n / 4096) % 64, 0x80 + (n / 64) % 64, 0x80 + n % 64]
  }

  /** The UTF-8 encoding of a string, the bytes bcrypt is handed. */
  function Utf8(s: string): seq<int> {
    if s == [] then [] else Utf8Char(s[0]) + Utf8(s[1..])
  }

  lemma {:induction false} Utf8Append(s: string, t: string)
    ensures Utf8(s + t) == Utf8(s) + Utf8(t)
    decreases |s|
  {
    if s == [] {
      assert s + t == t;
    } else {
      assert (s + t)[0] == s[0] && (s + t)[1..] == s[1..] + t;
      Utf8Append(s[1..], t);
    }
  }

  /** The key bcrypt actually hashes: the password's UTF-8 bytes, cut after the 72nd. */
  function BcryptKey(password: string): (key: seq<int>)
    ensures |key| <= BCRYPT_KEY_BYTES
    ensures key <= Utf8(password)
  {
    var u := Utf8(password);
    if |u| <= BCRYPT_KEY_BYTES then u else u[..BCRYPT_KEY_BYTES]
  }

  /** A bcrypt hash: cost, random salt, and the checksum, ideal here (it names the key it was made from). */
  datatype PasswordHash = Bcrypt(rounds: int, salt: string, checksumOf: seq<int>)

  /** `comparePassword(plain, hashed)`: bcrypt of the plain password's key under the stored salt matches. */
  predicate ComparePassword(plain: string, hashed: PasswordHash) {
    BcryptKey(plain) == hashed.checksumOf
  }

  /**
   * `hashPassword(p)` with the salt bcrypt draws: the hash accepts `p`, and accepts another
   * password exactly when the two agree on their first 72 UTF-8 bytes.
   */
  function HashPassword(password: string, salt: string): (h: PasswordHash)
    ensures ComparePassword(password, h)
    ensures forall q :: ComparePassword(q, h) <==> BcryptKey(q) == BcryptKey(password)
  {
    Bcrypt(BCRYPT_ROUNDS, salt, BcryptKey(password))
  }

  /**
   * A password whose encoding fits in 71 bytes or fewer is the only one its hash accepts
   * (shown here for ASCII passwords, one byte per character).
   */
  lemma ShortAsciiPasswordExact(password: string, salt: string, q: string)
    requires |password| < BCRYPT_KEY_BYTES
    requires forall i :: 0 <= i < |password| ==> password[i] as int < 0x80
    ensures ComparePassword(q, HashPassword(password, salt)) <==> q == password
  {
    AsciiUtf8Length(password);
    if ComparePassword(q, HashPassword(password, salt)) {
      assert |Utf8(q)| <= BCRYPT_KEY_BYTES;
      assert Utf8(q) == BcryptKey(q) == BcryptKey(password) == Utf8(password);
      Utf8AsciiInjective(password, q);
    }
  }

  lemma {:induction false} AsciiUtf8Length(s: string)
    requires forall i :: 0 <= i < |s| ==> s[i] as int < 0x80
    ensures |Utf8(s)| == |s|
    decreases |s|
  {
    if s != [] {
      AsciiUtf8Length(s[1..]);
    }
  }

  /** An ASCII string's encoding is the encoding of no other string. */
  lemma {:induction false} Utf8AsciiInjective(p: string, q: string)
    requires forall i :: 0 <= i < |p| ==> p[i] as int < 0x80
    requires Utf8(q) == Utf8(p)
    ensures q == p
    decreases |p|
  {
    if p != [] {
      assert Utf8(p) == [p[0] as int] + Utf8(p[1..]);
      assert q != [];
      var c := Utf8Char(q[0]);
      assert Utf8(q) == c + Utf8(q[1..]);
      assert Utf8(q)[0] == c[0] && Utf8(p)[0] == p[0] as int;
      assert q[0] as int < 0x80;
      assert q[0] as int == p[0] as int;
      assert Utf8(q)[1..] == Utf8(q[1..]) && Utf8(p)[1..] == Utf8(p[1..]);
      Utf8AsciiInjective(p[1..], q[1..]);
      assert q == [q[0]] + q[1..] && p == [p[0]] + p[1..];
    }
  }

  /** Beyond 72 bytes nothing counts: the hash of a long password accepts it with any tail appended. */
  lemma LongPasswordAcceptsAnyTail(password: string, salt: string, tail: string)
    requires |Utf8(password)| >= BCRYPT_KEY_BYTES
    ensures ComparePassword(password + tail, HashPassword(password, salt))
  {
    Utf8Append(password, tail);
    var u := Utf8(password);
    assert (u + Utf8(tail))[..BCRYPT_KEY_BYTES] == u[..BCRYPT_KEY_BYTES];
  }
}

=== FILE: cors.dfy ===
/**
 * The CORS allow-list: an administrator-managed table of origin rows and an in-memory
 * cache derived from it. The cache is rebuilt in full from the active rows (plus fixed
 * local origins in development) at start-up and after every administrative write, and
 * answers every request's origin check without reading the table.
 */
module Cors {

  import opened Wrappers

  datatype OriginRow = OriginRow(id: string, url: string, description: Option<string>, isActive: bool, createdAt: int)

  /** The fields `updateOrigin` may change; an absent field is left as it is. */
  datatype OriginPatch = OriginPatch(url: Option<string>, description: Option<string>, isActive: Option<bool>)

  const UNIQUE_URL_VIOLATION: string := "Unique constraint failed on the fields: (`url`)"
  const RECORD_TO_UPDATE_NOT_FOUND: string := "Record to update not found."
  const RECORD_TO_DELETE_NOT_FOUND: string := "Record to delete does not exist."
  const ORIGIN_NOT_FOUND: string := "Origin not found"

  const DEV_ORIGINS: seq<string> := [
    "http://localhost:3000",
    "http://localhost:3001",
    "http://localhost:5173",
    "http://localhost:4200",
    "http://127.0.0.1:3000"
  ]

  function DevOrigins(isDevelopment: bool): set<string> {
    if isDevelopment then set o | o in DEV_ORIGINS else {}
  }

  /** The URLs of the active rows. */
  function ActiveUrls(rows: map<string, OriginRow>): set<string> {
    set id | id in rows && rows[id].isActive :: rows[id].url
  }

  /** What the cache must hold for a given table: active URLs, plus the local origins in development. */
  function Projection(rows: map<string, OriginRow>, isDevelopment: bool): (p: set<string>)
    ensures forall o :: o in p <==>
      (exists id :: id in rows && rows[id].isActive && rows[id].url == o) || o in DevOrigins(isDevelopment)
  {
    ActiveUrls(rows) + DevOrigins(isDevelopment)
  }

  function Patched(row: OriginRow, patch: OriginPatch): OriginRow {
    row.(url := if patch.url.Some? then patch.url.value else row.url,
         description := if patch.description.Some? then patch.description else row.description,
         isActive := if patch.isActive.Some? then patch.isActive.value else row.isActive)
  }

  /** `updateMany({where: {url}, data: {isActive: false}})` */
  function DeactivateUrl(rows: map<string, OriginRow>, url: string): (r: map<string, OriginRow>)
    ensures r.Keys == rows.Keys
    ensures forall id :: id in rows ==> r[id] == if rows[id].url == url then rows[id].(isActive := false) else rows[id]
  {
    map id | id in rows :: if rows[id].url == url then rows[id].(isActive := false) else rows[id]
  }

  predicate UrlTaken(rows: map<string, OriginRow>, url: string, except: string) {
    exists id :: id in rows && id != except && rows[id].url == url
  }

  /** The origin table: rows keyed by id, URLs unique. */
  class OriginTable {
    var rows: map<string, OriginRow>

    ghost predicate Valid()
      reads this
    {
      && (forall id :: id in rows ==> rows[id].id == id)
      && (forall a, b :: a in rows && b in rows && a != b ==> rows[a].url != rows[b].url)
    }

    constructor ()
      ensures Valid() && rows == map[]
    {
      rows := map[];
    }

    /** `findUnique({where: {id}})` */
    function FindById(id: string): (r: Option<OriginRow>)
      reads this
      requires Valid()
      ensures r.Some? <==> id in rows
      ensures r.Some? ==> r.value == rows[id] && r.value.id == id
    {
      if id in rows then Some(rows[id]) else None
    }

    /** `create`: refused, writing nothing, when the URL is already used by a row. */
    method Create(row: OriginRow) returns (failure: Option<string>)
      requires Valid() && row.id !in rows
      modifies this
      ensures Valid()
      ensures failure.Some? <==> UrlTaken(old(rows), row.url, row.id)
      ensures failure.Some? ==> failure.value == UNIQUE_URL_VIOLATION && unchanged(this)
      ensures failure.None? ==> rows == old(rows)[row.id := row]
    {
      if UrlTaken(rows, row.url, row.id) {
        return Some(UNIQUE_URL_VIOLATION);
      }
      rows := rows[row.id := row];
      failure := None;
    }

    /** `update({where: {id}, data})`: not-found, or a URL another row holds, writes nothing. */
    method Update(id: string, patch: OriginPatch) returns (r: Result<OriginRow, string>)
      requires Valid()
      modifies this
      ensures Valid()
      ensures id !in old(rows) ==> r == Err(RECORD_TO_UPDATE_NOT_FOUND) && unchanged(this)
      ensures id in old(rows) && UrlTaken(old(rows), Patched(old(rows[id]), patch).url, id) ==>
        r == Err(UNIQUE_URL_VIOLATION) && unchanged(this)
      ensures id in old(rows) && !UrlTaken(old(rows), Patched(old(rows[id]), patch).url, id) ==>
        r == Ok(Patched(old(rows[id]), patch)) && rows == old(rows)[id := Patched(old(rows[id]), patch)]
    {
      if id !in rows {
        return Err(RECORD_TO_UPDATE_NOT_FOUND);
      }
      var updated := Patched(rows[id], patch);
      if UrlTaken(rows, updated.url, id) {
        return Err(UNIQUE_URL_VIOLATION);
      }
      rows := rows[id := updated];
      r := Ok(updated);
    }

    /** `delete({where: {id}})` */
    method Delete(id: string) returns (r: Result<OriginRow, string>)
      requires Valid()
      modifies this
      ensures Valid()
      ensures id !in old(rows) ==> r == Err(RECORD_TO_DELETE_NOT_FOUND) && unchanged(this)
      ensures id in old(rows) ==> r == Ok(old(rows[id])) && rows == old(rows) - {id}
    {
      if id !in rows {
        return Err(RECORD_TO_DELETE_NOT_FOUND);
      }
      r := Ok(rows[id]);
      rows := rows - {id};
    }

    /** Soft-deletes every row with the URL; no row is removed. */
    method DeactivateByUrl(url: string)
      requires Valid()
      modifies this
      ensures Valid()
      ensures rows == DeactivateUrl(old(rows), url)
    {
      rows := DeactivateUrl(rows, url);
    }

    /** `findMany({where: {isActive: true}, select: {url: true}})`, in no particular order. */
    method FindActiveUrls() returns (urls: seq<string>)
      requires Valid()
      ensures (set u | u in urls) == ActiveUrls(rows)
    {
      urls := [];
      var pending := rows.Keys;
      while pending != {}
        invariant pending <= rows.Keys
        invariant forall u :: u in urls ==> u in ActiveUrls(rows)
        invariant forall id :: id in rows && id !in pending && rows[id].isActive ==> rows[id].url in urls
        decreases |pending|
      {
        var id :| id in pending;
        if rows[id].isActive {
          urls := urls + [rows[id].url];
        }
        pending := pending - {id};
      }
    }
  }

  datatype CacheStats = CacheStats(totalOrigins: nat, lastRefresh: Option<int>, origins: seq<string>)

  predicate NoDuplicates(s: seq<string>) {
    forall i, j :: 0 <= i < j < |s| ==> s[i] != s[j]
  }

  class CorsService {
    const store: OriginTable
    const isDevelopment: bool
    var cache: set<string>
    var lastRefresh: Option<int>

    ghost predicate Valid()
      reads this, store
    {
      store.Valid()
    }

    /** The cache mirrors the table. */
    ghost predicate Synced()
      reads this, store
    {
      cache == Projection(store.rows, isDevelopment)
    }

    /** The development origins are added only when the environment is exactly 'development'. */
    constructor (store: OriginTable, nodeEnv: string)
      requires store.Valid()
      ensures Valid()
      ensures this.store == store && isDevelopment == (nodeEnv == "development")
      ensures cache == {} && lastRefresh == None
    {
      this.store := store;
      this.isDevelopment := nodeEnv == "development";
      cache := {};
      lastRefresh := None;
    }

    /** `isOriginAllowed`: an absent or empty origin is always allowed, any other only if cached. */
    function IsOriginAllowed(origin: Option<string>): (allowed: bool)
      reads this
      ensures origin.None? ==> allowed
      ensures origin == Some("") ==> allowed
      ensures origin.Some? && origin.value != "" ==> (allowed <==> origin.value in cache)
    {
      origin.None? || origin.value == "" || origin.value in cache
    }

    /**
     * `refreshCache`: a full replace. A failing read rethrows before the cache is cleared,
     * so the cache and the refresh time stay as they were; otherwise the cache is exactly
     * the projection of the table, with no earlier entry surviving, and the time is stamped.
     */
    method RefreshCache(now: int, readFailure: Option<string>) returns (r: Result<(), string>)
      requires Valid()
      modifies this
      ensures Valid()
      ensures readFailure.Some? ==> r == Err(readFailure.value) && cache == old(cache) && lastRefresh == old(lastRefresh)
      ensures readFailure.None? ==> r.Ok? && Synced() && lastRefresh == Some(now)
    {
      if readFailure.Some? {
        return Err(readFailure.value);
      }
      var urls := store.FindActiveUrls();
      cache := {};
      for i := 0 to |urls|
        invariant cache == set u | u in urls[..i]
      {
        assert urls[..i + 1] == urls[..i] + [urls[i]];
        cache := cache + {urls[i]};
      }
      assert urls[..|urls|] == urls;
      if isDevelopment {
        var dev := {};
        for j := 0 to |DEV_ORIGINS|
          invariant dev == set o | o in DEV_ORIGINS[..j]
          invariant cache == ActiveUrls(store.rows) + dev
        {
          assert DEV_ORIGINS[..j + 1] == DEV_ORIGINS[..j] + [DEV_ORIGINS[j]];
          dev := dev + {DEV_ORIGINS[j]};
          cache := cache + {DEV_ORIGINS[j]};
        }
        assert DEV_ORIGINS[..|DEV_ORIGINS|] == DEV_ORIGINS;
      }
      lastRefresh := Some(now);
      r := Ok(());
    }

    /**
     * `addOrigin`: the row is created (active) and the cache refreshed. If the URL is
     * already in the table, nothing changes. If the refresh read fails, the row stays but
     * the cache is stale and the error surfaces.
     */
    method AddOrigin(id: string, url: string, description: Option<string>, now: int, readFailure: Option<string>)
      returns (r: Result<OriginRow, string>)
      requires Valid() && id !in store.rows
      modifies this, store
      ensures Valid()
      ensures UrlTaken(old(store.rows), url, id) ==>
        r == Err(UNIQUE_URL_VIOLATION) && unchanged(store) && cache == old(cache) && lastRefresh == old(lastRefresh)
      ensures !UrlTaken(old(store.rows), url, id) ==>
        store.rows == old(store.rows)[id := OriginRow(id, url, description, true, now)]
        && (readFailure.Some? ==> r == Err(readFailure.value) && cache == old(cache) && lastRefresh == old(lastRefresh))
        && (readFailure.None? ==> r == Ok(OriginRow(id, url, description, true, now)) && lastRefresh == Some(now))
      ensures r.Ok? ==> Synced() && r.value == OriginRow(id, url, description, true, now) && url in cache
    {
      var row := OriginRow(id, url, description, true, now);
      var failure := store.Create(row);
      if failure.Some? {
        return Err(failure.value);
      }
      var refreshed := RefreshCache(now, readFailure);
      if refreshed.Err? {
        return Err(refreshed.error);
      }
      assert store.rows[id] == row;
      r := Ok(row);
    }

    /** `updateOrigin`: store update, then refresh; a refused update changes nothing. */
    method UpdateOrigin(id: string, patch: OriginPatch, now: int, readFailure: Option<string>)
      returns (r: Result<OriginRow, string>)
      requires Valid()
      modifies this, store
      ensures Valid()
      ensures id !in old(store.rows) ==>
        r == Err(RECORD_TO_UPDATE_NOT_FOUND) && unchanged(store) && cache == old(cache) && lastRefresh == old(lastRefresh)
      ensures id in old(store.rows) && UrlTaken(old(store.rows), Patched(old(store.rows[id]), patch).url, id) ==>
        r == Err(UNIQUE_URL_VIOLATION) && unchanged(store) && cache == old(cache) && lastRefresh == old(lastRefresh)
      ensures id in old(store.rows) && !UrlTaken(old(store.rows), Patched(old(store.rows[id]), patch).url, id) ==>
        store.rows == old(store.rows)[id := Patched(old(store.rows[id]), patch)]
        && (readFailure.Some? ==> r == Err(readFailure.value) && cache == old(cache) && lastRefresh == old(lastRefresh))
        && (readFailure.None? ==> r == Ok(Patched(old(store.rows[id]), patch)) && lastRefresh == Some(now))
      ensures r.Ok? ==> Synced()
    {
      var updated := store.Update(id, patch);
      if updated.Err? {
        return updated;
      }
      var refreshed := RefreshCache(now, readFailure);
      if refreshed.Err? {
        return Err(refreshed.error);
      }
      r := updated;
    }

    /** `deleteOrigin`: the row is removed, then the cache refreshed. */
    method DeleteOrigin(id: string, now: int, readFailure: Option<string>) returns (r: Result<OriginRow, string>)
      requires Valid()
      modifies this, store
      ensures Valid()
      ensures id !in old(store.rows) ==>
        r == Err(RECORD_TO_DELETE_NOT_FOUND) && unchanged(store) && cache == old(cache) && lastRefresh == old(lastRefresh)
      ensures id in old(store.rows) ==>
        store.rows == old(store.rows) - {id}
        && (readFailure.Some? ==> r == Err(readFailure.value) && cache == old(cache) && lastRefresh == old(lastRefresh))
        && (readFailure.None? ==> r == Ok(old(store.rows[id])) && lastRefresh == Some(now))
      ensures r.Ok? ==> Synced() && (r.value.url in cache <==> r.value.url in DevOrigins(isDevelopment))
    {
      var deleted := store.Delete(id);
      if deleted.Err? {
        return deleted;
      }
      var refreshed := RefreshCache(now, readFailure);
      if refreshed.Err? {
        return Err(refreshed.error);
      }
      r := deleted;
    }

    /**
     * `removeOrigin`: every row with the URL is marked inactive (none is removed), then
     * the cache is refreshed; the URL is then refused unless it is a development origin.
     */
    method RemoveOrigin(url: string, now: int, readFailure: Option<string>) returns (r: Result<(), string>)
      requires Valid()
      modifies this, store
      ensures Valid()
      ensures store.rows == DeactivateUrl(old(store.rows), url)
      ensures readFailure.Some? ==> r == Err(readFailure.value) && cache == old(cache) && lastRefresh == old(lastRefresh)
      ensures readFailure.None? ==> r.Ok? && lastRefresh == Some(now)
      ensures r.Ok? ==> Synced() && (url in cache <==> url in DevOrigins(isDevelopment))
    {
      store.DeactivateByUrl(url);
      r := RefreshCache(now, readFailure);
    }

    /**
     * `toggleOriginStatus`: an unknown id is 'Origin not found' with no write and no
     * refresh; otherwise only that row's isActive is negated and the cache refreshed.
     */
    method ToggleOriginStatus(id: string, now: int, readFailure: Option<string>) returns (r: Result<OriginRow, string>)
      requires Valid()
      modifies this, store
      ensures Valid()
      ensures id !in old(store.rows) ==>
        r == Err(ORIGIN_NOT_FOUND) && unchanged(store) && cache == old(cache) && lastRefresh == old(lastRefresh)
      ensures id in old(store.rows) ==>
        var toggled := old(store.rows[id]).(isActive := !old(store.rows[id]).isActive);
        && store.rows == old(store.rows)[id := toggled]
        && (readFailure.Some? ==> r == Err(readFailure.value) && cache == old(cache) && lastRefresh == old(lastRefresh))
        && (readFailure.None? ==> r == Ok(toggled) && lastRefresh == Some(now))
      ensures r.Ok? ==> Synced()
    {
      var origin := store.FindById(id);
      if origin.None? {
        return Err(ORIGIN_NOT_FOUND);
      }
      var updated := store.Update(id, OriginPatch(None, None, Some(!origin.value.isActive)));
      if updated.Err? {
        return updated;
      }
      var refreshed := RefreshCache(now, readFailure);
      if refreshed.Err? {
        return Err(refreshed.error);
      }
      r := updated;
    }

    /** `getAllowedOrigins`: the cached origins as a list, each once. */
    method GetAllowedOrigins() returns (origins: seq<string>)
      ensures NoDuplicates(origins)
      ensures (set o | o in origins) == cache
      ensures |origins| == |cache|
    {
      origins := [];
      var remaining := cache;
      while remaining != {}
        invariant remaining <= cache
        invariant NoDuplicates(origins)
        invariant forall x :: x in origins <==> x in cache && x !in remaining
        invariant |origins| + |remaining| == |cache|
        decreases |remaining|
      {
        var o :| o in remaining;
        origins := origins + [o];
        remaining := remaining - {o};
      }
    }

    /** `getCacheStats`: the count equals the cache size and the length of the list. */
    method GetCacheStats() returns (stats: CacheStats)
      ensures stats.totalOrigins == |cache| == |stats.origins|
      ensures (set o | o in stats.origins) == cache && NoDuplicates(stats.origins)
      ensures stats.lastRefresh == lastRefresh
    {
      var origins := GetAllowedOrigins();
      stats := CacheStats(|cache|, lastRefresh, origins);
    }
  }

  /**
   * Once synced, a non-empty origin is allowed exactly when an active row carries it or
   * it is one of the development origins in development.
   */
  lemma AllowedIffActiveOrDev(cors: CorsService, origin: string)
    requires cors.Synced() && origin != ""
    ensures cors.IsOriginAllowed(Some(origin)) <==>
      (exists id :: id in cors.store.rows && cors.store.rows[id].isActive && cors.store.rows[id].url == origin)
      || (cors.isDevelopment && origin in DEV_ORIGINS)
  {
  }

  /** Outside development a cache built from an empty table refuses every non-empty origin. */
  lemma EmptyTableAllowsOnlyBlank(origin: string)
    requires origin != ""
    ensures origin !in Projection(map[], false)
  {
  }
}

=== FILE: entities.dfy ===
/**
 * Records of the credential store and the views of them that leave the service:
 * users, refresh-token rows, audit entries and outgoing mail.
 */
module Entities {

  import opened Wrappers
  import opened Roles
  import opened Codec

  type UserId = string

  /** A user row. Secrets are held only as digests; the optional token/expiry pairs drive email verification and password reset. */
  datatype User = User(
    id: UserId,
    email: string,
    password: PasswordHash,
    firstName: Option<string>,
    lastName: Option<string>,
    roles: seq<Role>,
    isEmailVerified: bool,
    isActive: bool,
    isMfaEnabled: bool,
    mfaSecret: Option<string>,
    mfaBackupCodes: seq<Digest<string>>,
    emailVerificationToken: Option<string>,
    emailVerificationExpiry: Option<int>,
    passwordResetToken: Option<string>,
    passwordResetExpiry: Option<int>,
    lastLoginAt: Option<int>,
    createdAt: int)

  /** What `sanitizeUser` returns: every field except the password and three secrets. */
  datatype PublicUser = PublicUser(
    id: UserId,
    email: string,
    firstName: Option<string>,
    lastName: Option<string>,
    roles: seq<Role>,
    isEmailVerified: bool,
    isActive: bool,
    isMfaEnabled: bool,
    mfaBackupCodes: seq<Digest<string>>,
    emailVerificationExpiry: Option<int>,
    passwordResetExpiry: Option<int>,
    lastLoginAt: Option<int>,
    createdAt: int)

  /** Puts the four withheld fields back into a public view. */
  function Restore(p: PublicUser, password: PasswordHash, mfaSecret: Option<string>,
                   emailVerificationToken: Option<string>, passwordResetToken: Option<string>): User
  {
    User(p.id, p.email, password, p.firstName, p.lastName, p.roles, p.isEmailVerified, p.isActive,
         p.isMfaEnabled, mfaSecret, p.mfaBackupCodes, emailVerificationToken, p.emailVerificationExpiry,
         passwordResetToken, p.passwordResetExpiry, p.lastLoginAt, p.createdAt)
  }

  /**
   * `sanitizeUser`: drops exactly the password, the MFA secret and the two single-use
   * tokens; everything else (including the hashed backup codes and both expiries) is kept.
   */
  function SanitizeUser(u: User): (p: PublicUser)
    ensures Restore(p, u.password, u.mfaSecret, u.emailVerificationToken, u.passwordResetToken) == u
  {
    PublicUser(u.id, u.email, u.firstName, u.lastName, u.roles, u.isEmailVerified, u.isActive,
               u.isMfaEnabled, u.mfaBackupCodes, u.emailVerificationExpiry, u.passwordResetExpiry,
               u.lastLoginAt, u.createdAt)
  }

  /** The claims put into both tokens at login. */
  function PayloadOf(u: User): TokenPayload {
    TokenPayload(u.id, u.email, u.roles)
  }

  /** One issued session line: only the token's digest is stored. */
  datatype RefreshRow = RefreshRow(
    hashedToken: Digest<Jwt>,
    userId: UserId,
    expiresAt: int,
    isRevoked: bool,
    revokedAt: Option<int>,
    deviceInfo: Option<string>,
    ipAddress: Option<string>)

  datatype AuditAction = USER_REGISTERED | LOGIN_FAILED | USER_LOGIN

  datatype AuditResource = USER_RESOURCE | AUTH_RESOURCE

  datatype AuditEntry = AuditEntry(
    userId: UserId,
    action: AuditAction,
    resource: AuditResource,
    ipAddress: Option<string>,
    userAgent: Option<string>,
    success: bool)

  datatype MailKind = VerificationMail | PasswordResetMail

  /** A message handed to the mail transport, reduced to its recipient, kind and link. */
  datatype Mail = Mail(to: string, kind: MailKind, link: string)

  const VERIFY_EMAIL_PATH: string := "/api/auth/verify-email?token="
  const RESET_PASSWORD_PATH: string := "/api/auth/reset-password?token="

  /** `{backend}{path}{token}`: the backend URL, then the endpoint path, then the token. */
  function TokenLink(backend: string, path: string, token: string): (link: string)
    ensures |link| == |backend| + |path| + |token|
    ensures link[..|backend|] == backend
    ensures link[|backend|..|backend| + |path|] == path
    ensures link[|backend| + |path|..] == token
  {
    backend + path + token
  }

  /** What the profile endpoint returns: no password, MFA secret, backup codes or tokens. */
  datatype Profile = Profile(
    id: UserId,
    email: string,
    firstName: Option<string>,
    lastName: Option<string>,
    roles: seq<Role>,
    isEmailVerified: bool,
    isMfaEnabled: bool,
    lastLoginAt: Option<int>,
    createdAt: int)

  function ProfileOf(u: User): Profile {
    Profile(u.id, u.email, u.firstName, u.lastName, u.roles, u.isEmailVerified, u.isMfaEnabled,
            u.lastLoginAt, u.createdAt)
  }

  /** What the profile update returns. */
  datatype ProfileSummary = ProfileSummary(id: UserId, email: string, firstName: Option<string>,
                                           lastName: Option<string>, roles: seq<Role>)

  function SummaryOf(u: User): ProfileSummary {
    ProfileSummary(u.id, u.email, u.firstName, u.lastName, u.roles)
  }
}

=== FILE: http.dfy ===
/**
 * What a request handler or middleware can do with a request: answer it (status, JSON
 * body, refresh-cookie action), hand an error to the generic error handler, or pass
 * the request on to the next handler.
 */
module Http {

  import opened Wrappers
  import opened Roles
  import opened Codec
  import opened Entities

  /** The JSON bodies the handlers send. */
  datatype Body =
    | ValidationErrors(errors: seq<string>)
    | ErrorBody(error: string)
    | MessageBody(message: string)
    | RegisteredBody(user: PublicUser, message: string)
    | LoginBody(user: PublicUser, accessToken: Jwt, message: string)
    | MfaRequiredBody(tempToken: string, message: string)
    | AccessTokenBody(accessToken: Jwt)
    | MfaSetupBody(secret: string, backupCodes: seq<string>, message: string)
    | ProfileBody(profile: Profile)
    | SummaryBody(summary: ProfileSummary)
    | ForbiddenBody(error: string, required: seq<Role>, current: seq<Role>)

  /** The cookie settings read from the environment. */
  datatype CookieConfig = CookieConfig(domain: string, secure: bool, sameSite: string)

  datatype CookieOptions = CookieOptions(httpOnly: bool, secure: bool, sameSite: string, maxAgeMs: int, domain: string)

  datatype CookieAction =
    | NoCookieChange
    | SetRefreshCookie(value: Jwt, options: CookieOptions)
    | ClearRefreshCookie

  datatype Outcome =
    | Reply(status: int, body: Body, cookie: CookieAction)
    | PassToErrorHandler(error: string)

  /** A handler's outcome and whether it invoked the service behind it. */
  datatype Handled = Handled(outcome: Outcome, serviceCalled: bool)

  const AUTHENTICATION_REQUIRED: string := "Authentication required"
  const REFRESH_COOKIE_MAX_AGE_MS: int := 7 * 24 * 60 * 60 * 1000

  function Respond(status: int, body: Body): Outcome {
    Reply(status, body, NoCookieChange)
  }
}

=== FILE: roles.dfy ===
/**
 * Roles and the role gate in front of privileged routes
 * (`checkRole`, `isAdmin`, `isModerator`).
 */
module Roles {

  import opened Wrappers

  /** The three privilege tiers of the user table. */
  datatype Role = USER | MODERATOR | ADMIN

  /** Outcome of the role gate: continue to the handler, or answer with an error status. */
  datatype Gate =
    | Next
    | Unauthenticated                                  // 401 'Authentication required'
    | Forbidden(required: seq<Role>, current: seq<Role>) // 403 'Insufficient permissions'

  /** `roles.some(role => allowed.includes(role))`, scanning the user's roles in order. */
  predicate SharesRole(roles: seq<Role>, allowed: seq<Role>)
    decreases |roles|
  {
    if roles == [] then false
    else roles[0] in allowed || SharesRole(roles[1..], allowed)
  }

  lemma {:induction false} SharesRoleIff(roles: seq<Role>, allowed: seq<Role>)
    ensures SharesRole(roles, allowed) <==> exists r :: r in roles && r in allowed
    decreases |roles|
  {
    if roles != [] {
      SharesRoleIff(roles[1..], allowed);
      assert forall r :: r in roles <==> r == roles[0] || r in roles[1..];
    }
  }

  /**
   * `checkRole(...allowed)` applied to the request's user: no user is 401, a user with
   * some allowed role passes, anyone else is 403 echoing both role lists.
   */
  function CheckRole(user: Option<seq<Role>>, allowed: seq<Role>): (g: Gate)
    ensures user.None? <==> g == Unauthenticated
    ensures user.Some? ==>
      (g == Next <==> exists r :: r in user.value && r in allowed)
    ensures user.Some? && g != Next ==> g == Forbidden(allowed, user.value)
  {
    SharesRoleIff(if user.Some? then user.value else [], allowed);
    match user
    case None => Unauthenticated
    case Some(roles) => if SharesRole(roles, allowed) then Next else Forbidden(allowed, roles)
  }

  /** `isAdmin = checkRole(ADMIN)` */
  function IsAdmin(user: Option<seq<Role>>): (g: Gate)
    ensures user.Some? ==> (g == Next <==> ADMIN in user.value)
  {
    CheckRole(user, [ADMIN])
  }

  /** `isModerator = checkRole(ADMIN, MODERATOR)` */
  function IsModerator(user: Option<seq<Role>>): (g: Gate)
    ensures user.Some? ==> (g == Next <==> ADMIN in user.value || MODERATOR in user.value)
  {
    CheckRole(user, [ADMIN, MODERATOR])
  }

  /** Granting the user more roles, or allowing more roles, never turns a pass into a 403. */
  lemma CheckRoleMonotone(roles: seq<Role>, more: seq<Role>, allowed: seq<Role>, alsoAllowed: seq<Role>)
    requires CheckRole(Some(roles), allowed) == Next
    ensures CheckRole(Some(roles + more), allowed + alsoAllowed) == Next
  {
    var r :| r in roles && r in allowed;
    assert r in roles + more && r in allowed + alsoAllowed;
  }

  /** No user passes a gate that allows no role. */
  lemma EmptyAllowedForbids(roles: seq<Role>)
    ensures CheckRole(Some(roles), []) == Forbidden([], roles)
  {
  }
}

=== FILE: scenarios.dfy ===
/**
 * Properties that span several operations, written as clients that run the operations
 * in sequence on one store and state what the sequence guarantees.
 */
module Scenarios {

  import opened Wrappers
  import opened Codec
  import opened Totp
  import opened Entities
  import opened Store
  import opened Auth
  import opened UserController
  import opened Http

  /**
   * A refresh token handed out by a full login refreshes at once, for the user who logged in
   * (given a refresh lifetime of at least one second; a token with none is expired when minted).
   */
  method LoginThenRefresh(svc: AuthService, email: string, password: string, totpCode: Option<string>,
                          ipAddress: Option<string>, userAgent: Option<string>,
                          now: int, tempToken: string, totp: Authenticator)
    returns (login: Result<AuthResponse, AuthError>, refreshed: Result<Jwt, AuthError>)
    requires svc.db.Valid() && svc.jwt.refreshTtl > 0
    modifies svc.db
    ensures svc.db.Valid()
    ensures login.Ok? && login.value.Session? ==>
      email in svc.db.byEmail
      && refreshed == Ok(Mint(svc.jwt, AccessAudience, PayloadOf(svc.db.users[svc.db.byEmail[email]]), now))
  {
    login := svc.Login(email, password, totpCode, ipAddress, userAgent, now, tempToken, totp);
    if login.Ok? && login.value.Session? {
      refreshed := svc.RefreshAccessToken(login.value.refreshToken, now);
    } else {
      refreshed := Err(InvalidRefreshToken);
    }
  }

  /** After logout the same refresh token is refused as revoked, at any later time. */
  method LogoutThenRefresh(svc: AuthService, token: Jwt, now: int, later: int)
    returns (refreshed: Result<Jwt, AuthError>)
    requires svc.db.Valid()
    modifies svc.db
    ensures refreshed == Err(InvalidRefreshToken) || refreshed == Err(RefreshTokenRevoked)
    ensures svc.TokenVerifies(token, later) ==> refreshed == Err(RefreshTokenRevoked)
  {
    svc.Logout(token, now);
    refreshed := svc.RefreshAccessToken(token, later);
  }

  /**
   * Deleting the account locks the user out: whatever the password, code or authenticator,
   * login stops at the deactivation check, and no token naming the user, nor any token
   * stored for the user, refreshes again.
   */
  method DeactivationLocksOut(svc: AuthService, caller: TokenPayload, now: int) returns (o: Outcome)
    requires svc.db.Valid() && caller.userId in svc.db.users
    modifies svc.db
    ensures svc.db.Valid() && caller.userId in svc.db.users
    ensures o == Reply(200, MessageBody(ACCOUNT_DEACTIVATED_MESSAGE), ClearRefreshCookie)
    ensures forall password, code, totp :: LoginGate(svc.db.users[caller.userId], password, code, totp) == Deactivated
    ensures forall t: Jwt, n :: t.claims.payload.userId == caller.userId ==> !svc.RefreshAllowed(t, n)
    ensures forall t: Jwt :: HashToken(t) in svc.db.refreshTokens && svc.db.refreshTokens[HashToken(t)].userId == caller.userId ==>
      !svc.RowLive(t)
  {
    o := DeleteAccount(svc.db, Some(caller), now);
  }

  /** A verification token held by one user works once; presenting it again fails. */
  method VerifyEmailTwice(svc: AuthService, token: string, now: int)
    returns (first: Result<string, AuthError>, second: Result<string, AuthError>)
    requires svc.db.Valid()
    requires forall a, b ::
      (a in svc.db.users && b in svc.db.users && VerificationMatches(svc.db.users[a], token, now)
       && VerificationMatches(svc.db.users[b], token, now)) ==> a == b
    modifies svc.db
    ensures first.Ok? ==> second == Err(InvalidVerificationToken)
  {
    first := svc.VerifyEmail(token, now);
    second := svc.VerifyEmail(token, now);
  }

  /**
   * Enrolling and then confirming switches MFA on with the new secret and the digests of
   * the codes handed out; from then on a login without a code only gets the step-up answer.
   */
  method EnrolThenConfirm(svc: AuthService, userId: UserId, secret: string, draw: nat -> Word,
                          code: string, totp: Authenticator)
    returns (setup: Result<MfaSetup, AuthError>, confirmed: Result<string, AuthError>)
    requires svc.db.Valid() && userId in svc.db.users && !svc.db.users[userId].isMfaEnabled && secret != ""
    modifies svc.db
    ensures setup.Ok? && userId in svc.db.users
    ensures confirmed.Ok? <==> VerifyToken(totp, code, secret)
    ensures confirmed.Ok? ==>
      var u := svc.db.users[userId];
      && u.isMfaEnabled && u.mfaSecret == Some(secret)
      && u.mfaBackupCodes == HashBackupCodes(setup.value.backupCodes)
      && forall password :: u.isActive && ComparePassword(password, u.password) && u.isEmailVerified ==>
           LoginGate(u, password, None, totp) == NeedsMfaCode
    ensures !confirmed.Ok? ==> userId in svc.db.users && !svc.db.users[userId].isMfaEnabled
  {
    setup := svc.EnableMfa(userId, secret, draw);
    confirmed := svc.VerifyMfa(userId, code, totp);
  }

  /**
   * A completed reset leaves the user's hash accepting the new password and exactly the
   * passwords that agree with it on their first 72 UTF-8 bytes, and every refresh token
   * stored for that user revoked.
   */
  method ResetEndsSessions(svc: AuthService, token: string, newPassword: string, salt: string, now: int)
    returns (r: Result<string, AuthError>)
    requires svc.db.Valid()
    modifies svc.db
    ensures r.Ok? ==> exists id :: (
      && id in svc.db.users
      && ComparePassword(newPassword, svc.db.users[id].password)
      && (forall q :: ComparePassword(q, svc.db.users[id].password) <==> BcryptKey(q) == BcryptKey(newPassword))
      && (forall t: Jwt :: HashToken(t) in svc.db.refreshTokens && svc.db.refreshTokens[HashToken(t)].userId == id ==>
            !svc.RowLive(t)))
  {
    r := svc.ResetPassword(token, newPassword, salt, now);
  }
}

=== FILE: store.dfy ===
/**
 * The credential store behind the authentication engine — users (by id, with a unique
 * email index), refresh-token rows keyed by token digest, and the append-only audit
 * log — and the outgoing-mail transport. Each method is one store call of the engine.
 */
module Store {

  import opened Wrappers
  import opened Codec
  import opened Entities

  type TokenTable = map<Digest<Jwt>, RefreshRow>

  function Revoke(row: RefreshRow, now: int): RefreshRow {
    row.(isRevoked := true, revokedAt := Some(now))
  }

  /** `updateMany` revoking the rows with digest `h` (there is at most one). */
  function RevokeByHash(rows: TokenTable, h: Digest<Jwt>, now: int): (r: TokenTable)
    ensures r.Keys == rows.Keys
    ensures forall k :: k in rows ==> r[k] == if k == h then Revoke(rows[k], now) else rows[k]
  {
    if h in rows then rows[h := Revoke(rows[h], now)] else rows
  }

  /** `updateMany` revoking every row of one user; other users' rows are untouched. */
  function RevokeForUser(rows: TokenTable, userId: UserId, now: int): (r: TokenTable)
    ensures r.Keys == rows.Keys
    ensures forall k :: k in rows ==> r[k] == if rows[k].userId == userId then Revoke(rows[k], now) else rows[k]
  {
    map k | k in rows :: if rows[k].userId == userId then Revoke(rows[k], now) else rows[k]
  }

  /** Rows are never deleted and a revoked row stays revoked. */
  ghost predicate RevocationsKept(before: TokenTable, after: TokenTable) {
    forall h :: h in before ==> h in after && (before[h].isRevoked ==> after[h].isRevoked)
  }

  class CredentialStore {
    var users: map<UserId, User>
    var byEmail: map<string, UserId>
    var refreshTokens: TokenTable
    var audit: seq<AuditEntry>

    /**
     * Rows sit under their own key, the email index is exact (emails are unique, compared
     * exactly), every token row belongs to a stored user, and MFA is only ever switched on
     * for a user holding a secret.
     */
    ghost predicate Valid()
      reads this
    {
      && (forall id :: id in users ==>
            users[id].id == id && users[id].email in byEmail && byEmail[users[id].email] == id)
      && (forall e :: e in byEmail ==> byEmail[e] in users && users[byEmail[e]].email == e)
      && (forall h :: h in refreshTokens ==>
            refreshTokens[h].hashedToken == h && refreshTokens[h].userId in users)
      && (forall id :: id in users && users[id].isMfaEnabled ==> Truthy(users[id].mfaSecret))
    }

    constructor ()
      ensures Valid()
      ensures users == map[] && byEmail == map[] && refreshTokens == map[] && audit == []
    {
      users, byEmail, refreshTokens, audit := map[], map[], map[], [];
    }

    /** `user.findUnique({where: {email}})`: exact, case-sensitive match. */
    function FindByEmail(email: string): (r: Option<User>)
      reads this
      requires Valid()
      ensures r.Some? <==> exists id :: id in users && users[id].email == email
      ensures r.Some? ==> r.value.email == email && r.value.id in users && users[r.value.id] == r.value
    {
      if email in byEmail then Some(users[byEmail[email]]) else None
    }

    /** `user.create` for a fresh id and an email no user has. */
    method CreateUser(u: User)
      requires Valid() && u.id !in users && u.email !in byEmail && !u.isMfaEnabled
      modifies this
      ensures Valid()
      ensures users == old(users)[u.id := u] && byEmail == old(byEmail)[u.email := u.id]
      ensures refreshTokens == old(refreshTokens) && audit == old(audit)
    {
      users := users[u.id := u];
      byEmail := byEmail[u.email := u.id];
    }

    /** `user.update` of a stored user; no update here changes an email. */
    method UpdateUser(u: User)
      requires Valid() && u.id in users && u.email == users[u.id].email
      requires u.isMfaEnabled ==> Truthy(u.mfaSecret)
      modifies this
      ensures Valid()
      ensures users == old(users)[u.id := u]
      ensures byEmail == old(byEmail) && refreshTokens == old(refreshTokens) && audit == old(audit)
    {
      users := users[u.id := u];
    }

    /** `refreshToken.create`: fails, writing nothing, when the digest is already stored. */
    method CreateRefreshToken(row: RefreshRow) returns (created: bool)
      requires Valid() && row.userId in users
      modifies this
      ensures Valid()
      ensures created <==> row.hashedToken !in old(refreshTokens)
      ensures !created ==> unchanged(this)
      ensures refreshTokens == if created then old(refreshTokens)[row.hashedToken := row] else old(refreshTokens)
      ensures users == old(users) && byEmail == old(byEmail) && audit == old(audit)
    {
      created := row.hashedToken !in refreshTokens;
      if created {
        refreshTokens := refreshTokens[row.hashedToken := row];
      }
    }

    method RevokeTokensByHash(h: Digest<Jwt>, now: int)
      requires Valid()
      modifies this
      ensures Valid()
      ensures refreshTokens == RevokeByHash(old(refreshTokens), h, now)
      ensures users == old(users) && byEmail == old(byEmail) && audit == old(audit)
    {
      refreshTokens := RevokeByHash(refreshTokens, h, now);
    }

    method RevokeTokensOfUser(userId: UserId, now: int)
      requires Valid()
      modifies this
      ensures Valid()
      ensures refreshTokens == RevokeForUser(old(refreshTokens), userId, now)
      ensures users == old(users) && byEmail == old(byEmail) && audit == old(audit)
    {
      refreshTokens := RevokeForUser(refreshTokens, userId, now);
    }

    /** `auditLog.create`: entries are only ever appended. */
    method AppendAudit(e: AuditEntry)
      requires Valid()
      modifies this
      ensures Valid()
      ensures audit == old(audit) + [e]
      ensures users == old(users) && byEmail == old(byEmail) && refreshTokens == old(refreshTokens)
    {
      audit := audit + [e];
    }
  }

  /** What the mail transport will do with the next message. */
  datatype Delivery = Delivered | Undeliverable(reason: string)

  /** The outgoing-mail transport, as the list of messages it accepted. */
  class Mailer {
    var sent: seq<Mail>

    constructor ()
      ensures sent == []
    {
      sent := [];
    }

    /** Sends one message; a refused message is not recorded and its reason is returned. */
    method Send(mail: Mail, delivery: Delivery) returns (failure: Option<string>)
      modifies this
      ensures delivery.Delivered? ==> failure == None && sent == old(sent) + [mail]
      ensures delivery.Undeliverable? ==> failure == Some(delivery.reason) && sent == old(sent)
    {
      match delivery
      case Delivered =>
        sent := sent + [mail];
        failure := None;
      case Undeliverable(reason) =>
        failure := Some(reason);
    }
  }
}

=== FILE: totp.dfy ===
/**
 * The MFA verifier: the TOTP check as a total boolean, recovery ("backup") codes and their
 * digests. The TOTP algorithm itself (time steps, drift window) is the authenticator
 * library's and is taken as a parameter.
 */
module Totp {

  import opened Wrappers
  import opened Codec

  newtype byte = x: int | 0 <= x < 256

  /** Four bytes, as drawn by `crypto.randomBytes(4)`. */
  datatype Word = Word(b0: byte, b1: byte, b2: byte, b3: byte)

  /**
   * The authenticator library at the current time: `Some(v)` is its verdict on (code, secret),
   * `None` means it threw. `verifyToken` turns that into a plain boolean.
   */
  type Authenticator = (string, string) -> Option<bool>

  /** `verifyToken`: never throws; a library exception counts as a rejected code. */
  function VerifyToken(library: Authenticator, code: string, secret: string): (ok: bool)
    ensures ok <==> library(code, secret) == Some(true)
  {
    match library(code, secret)
    case Some(verdict) => verdict
    case None => false
  }

  /** `hashBackupCode`: SHA-256 of the code, the form in which codes are stored. */
  function HashBackupCode(code: string): Digest<string> {
    Sha256(code)
  }

  /** One lower-case hex digit, as `Buffer.toString('hex')` writes it. */
  function HexChar(n: int): char
    requires 0 <= n < 16
  {
    if n < 10 then ('0' as int + n) as char else ('a' as int + n - 10) as char
  }

  function ByteHex(b: byte): string {
    [HexChar(b as int / 16), HexChar(b as int % 16)]
  }

  function WordHex(w: Word): string {
    ByteHex(w.b0) + ByteHex(w.b1) + ByteHex(w.b2) + ByteHex(w.b3)
  }

  /** `toUpperCase` on the ASCII letters, the only letters hex output contains. */
  function UpperChar(c: char): char {
    if 'a' <= c <= 'z' then (c as int - 32) as char else c
  }

  function ToUpper(s: string): (u: string)
    ensures |u| == |s|
  {
    seq(|s|, i requires 0 <= i < |s| => UpperChar(s[i]))
  }

  predicate IsUpperHex(c: char) {
    '0' <= c <= '9' || 'A' <= c <= 'F'
  }

  /**
   * Backup code for one random word: its upper-cased hex, split after the fourth digit.
   * Nine characters, a dash in the middle, upper-case hex digits everywhere else.
   */
  function BackupCode(w: Word): (code: string)
    ensures |code| == 9 && code[4] == '-'
    ensures forall i :: 0 <= i < 9 && i != 4 ==> IsUpperHex(code[i])
  {
    var hex := ToUpper(WordHex(w));
    UpperHexDigits(w);
    hex[..4] + "-" + hex[4..8]
  }

  lemma UpperHexDigits(w: Word)
    ensures |WordHex(w)| == 8
    ensures forall i :: 0 <= i < 8 ==> IsUpperHex(ToUpper(WordHex(w))[i])
  {
    forall n | 0 <= n < 16 ensures IsUpperHex(UpperChar(HexChar(n))) {
    }
  }

  function NibbleValue(c: char): Option<int> {
    if '0' <= c <= '9' then Some(c as int - '0' as int)
    else if 'A' <= c <= 'F' then Some(c as int - 'A' as int + 10)
    else None
  }

  function ParseByte(hi: char, lo: char): Option<byte> {
    match (NibbleValue(hi), NibbleValue(lo))
    case (Some(h), Some(l)) => Some((16 * h + l) as byte)
    case _ => None
  }

  /** Reads a backup code back into the random word it was printed from. */
  function ParseBackupCode(code: string): Option<Word> {
    if |code| != 9 || code[4] != '-' then None
    else
      match (ParseByte(code[0], code[1]), ParseByte(code[2], code[3]),
             ParseByte(code[5], code[6]), ParseByte(code[7], code[8]))
      case (Some(b0), Some(b1), Some(b2), Some(b3)) => Some(Word(b0, b1, b2, b3))
      case _ => None
  }

  lemma NibbleRoundTrip(n: int)
    requires 0 <= n < 16
    ensures NibbleValue(UpperChar(HexChar(n))) == Some(n)
  {
  }

  lemma ByteRoundTrip(b: byte)
    ensures ParseByte(UpperChar(ByteHex(b)[0]), UpperChar(ByteHex(b)[1])) == Some(b)
  {
    NibbleRoundTrip(b as int / 16);
    NibbleRoundTrip(b as int % 16);
  }

  /** The printed code determines the random word, so distinct draws give distinct codes. */
  lemma ParseBackupCodeRoundTrip(w: Word)
    ensures ParseBackupCode(BackupCode(w)) == Some(w)
  {
    var code := BackupCode(w);
    var hex := WordHex(w);
    assert code[0] == UpperChar(ByteHex(w.b0)[0]) && code[1] == UpperChar(ByteHex(w.b0)[1]);
    assert code[2] == UpperChar(ByteHex(w.b1)[0]) && code[3] == UpperChar(ByteHex(w.b1)[1]);
    assert code[5] == UpperChar(ByteHex(w.b2)[0]) && code[6] == UpperChar(ByteHex(w.b2)[1]);
    assert code[7] == UpperChar(ByteHex(w.b3)[0]) && code[8] == UpperChar(ByteHex(w.b3)[1]);
    ByteRoundTrip(w.b0);
    ByteRoundTrip(w.b1);
    ByteRoundTrip(w.b2);
    ByteRoundTrip(w.b3);
  }

  lemma BackupCodeInjective(v: Word, w: Word)
    requires BackupCode(v) == BackupCode(w)
    ensures v == w
  {
    ParseBackupCodeRoundTrip(v);
    ParseBackupCodeRoundTrip(w);
  }

  /** The number of codes a call produces: the loop runs while `i < count`. */
  function CodeCount(count: int): nat {
    if count <= 0 then 0 else count
  }

  /**
   * `generateBackupCodes(count = 10)`: code i is printed from the i-th random draw, in the
   * order drawn, and exactly `count` codes are returned (none for a count of zero or less).
   */
  method GenerateBackupCodes(draw: nat -> Word, count: int := 10) returns (codes: seq<string>)
    ensures |codes| == CodeCount(count)
    ensures forall i :: 0 <= i < |codes| ==> codes[i] == BackupCode(draw(i))
  {
    codes := [];
    var i := 0;
    while i < count
      invariant 0 <= i <= CodeCount(count)
      invariant |codes| == i
      invariant forall k :: 0 <= k < i ==> codes[k] == BackupCode(draw(k))
    {
      var hex := ToUpper(WordHex(draw(i)));
      codes := codes + [hex[..4] + "-" + hex[4..8]];
      i := i + 1;
    }
  }

  /** `backupCodes.map(hashBackupCode)`: the stored form, one digest per code, same order. */
  function HashBackupCodes(codes: seq<string>): (digests: seq<Digest<string>>)
    ensures |digests| == |codes|
    ensures forall i :: 0 <= i < |codes| ==> digests[i] == HashBackupCode(codes[i])
  {
    if codes == [] then [] else [HashBackupCode(codes[0])] + HashBackupCodes(codes[1..])
  }
}

=== FILE: user_controller.dfy ===
/**
 * The signed-in user's own endpoints: read the profile, change the display names, and
 * deactivate the account. The caller is whatever the authentication middleware put on
 * the request; each handler answers 401 and touches nothing when there is none.
 */
module UserController {

  import opened Wrappers
  import opened Codec
  import opened Entities
  import opened Store
  import opened Http

  const USER_NOT_FOUND: string := "User not found"
  const RECORD_NOT_FOUND: string := "Record to update not found."
  const ACCOUNT_DEACTIVATED_MESSAGE: string := "Account deactivated successfully"

  /**
   * `getProfile`: the caller's row projected to its public columns, or 404 when the row
   * is gone. The store is only read.
   */
  function GetProfile(db: CredentialStore, caller: Option<TokenPayload>): (o: Outcome)
    reads db
    requires db.Valid()
    ensures caller.None? ==> o == Respond(401, ErrorBody(AUTHENTICATION_REQUIRED))
    ensures caller.Some? && caller.value.userId !in db.users ==> o == Respond(404, ErrorBody(USER_NOT_FOUND))
    ensures caller.Some? && caller.value.userId in db.users ==>
      o.Reply? && o.status == 200 && o.body.ProfileBody?
      && o.body.profile.id == caller.value.userId
      && o.body.profile == ProfileOf(db.users[caller.value.userId])
  {
    match caller
    case None => Respond(401, ErrorBody(AUTHENTICATION_REQUIRED))
    case Some(p) =>
      if p.userId !in db.users then Respond(404, ErrorBody(USER_NOT_FOUND))
      else Respond(200, ProfileBody(ProfileOf(db.users[p.userId])))
  }

  /**
   * Two rows that differ only in their password hash, MFA secret and backup codes, and
   * their verification and reset tokens, show the same profile: none of those reach it.
   */
  lemma ProfileHidesSecrets(u: User, password: PasswordHash, mfaSecret: Option<string>,
                            backupCodes: seq<Digest<string>>, verification: Option<string>, reset: Option<string>)
    ensures ProfileOf(u) == ProfileOf(u.(password := password, mfaSecret := mfaSecret, mfaBackupCodes := backupCodes,
                                         emailVerificationToken := verification, passwordResetToken := reset))
    ensures SummaryOf(u) == SummaryOf(u.(password := password, mfaSecret := mfaSecret, mfaBackupCodes := backupCodes,
                                         emailVerificationToken := verification, passwordResetToken := reset))
  {
  }

  /** `firstName || undefined`: a missing or empty value leaves the stored one. */
  function Replacement(given: Option<string>, stored: Option<string>): (r: Option<string>)
    ensures Truthy(given) ==> r == given
    ensures !Truthy(given) ==> r == stored
  {
    if Truthy(given) then given else stored
  }

  function WithNames(u: User, firstName: Option<string>, lastName: Option<string>): User {
    u.(firstName := Replacement(firstName, u.firstName), lastName := Replacement(lastName, u.lastName))
  }

  /**
   * `updateProfile`: only firstName and lastName of the caller's row can change, each
   * only when a non-empty value is given; the answer is the updated summary. A caller
   * whose row is gone gets the store's not-found error through the generic handler.
   */
  method UpdateProfile(db: CredentialStore, caller: Option<TokenPayload>,
                       firstName: Option<string>, lastName: Option<string>) returns (o: Outcome)
    requires db.Valid()
    modifies db
    ensures db.Valid()
    ensures caller.None? ==> o == Respond(401, ErrorBody(AUTHENTICATION_REQUIRED)) && unchanged(db)
    ensures caller.Some? && caller.value.userId !in old(db.users) ==>
      o == PassToErrorHandler(RECORD_NOT_FOUND) && unchanged(db)
    ensures caller.Some? && caller.value.userId in old(db.users) ==>
      var id := caller.value.userId;
      var updated := WithNames(old(db.users[id]), firstName, lastName);
      && db.users == old(db.users)[id := updated]
      && o == Respond(200, SummaryBody(SummaryOf(updated)))
    ensures db.byEmail == old(db.byEmail) && db.refreshTokens == old(db.refreshTokens) && db.audit == old(db.audit)
  {
    if caller.None? {
      return Respond(401, ErrorBody(AUTHENTICATION_REQUIRED));
    }
    var id := caller.value.userId;
    if id !in db.users {
      return PassToErrorHandler(RECORD_NOT_FOUND);
    }
    var updated := WithNames(db.users[id], firstName, lastName);
    db.UpdateUser(updated);
    o := Respond(200, SummaryBody(SummaryOf(updated)));
  }

  /** Apart from the two names, an update leaves every column as it was. */
  lemma WithNamesKeepsTheRest(u: User, firstName: Option<string>, lastName: Option<string>)
    ensures WithNames(u, firstName, lastName).(firstName := u.firstName, lastName := u.lastName) == u
    ensures !Truthy(firstName) && !Truthy(lastName) ==> WithNames(u, firstName, lastName) == u
  {
  }

  /**
   * `deleteAccount`: a soft delete. The caller's row is deactivated, never removed, and
   * then every refresh token of that user, and of no other user, is revoked; the cookie
   * is cleared. If the row is gone, the first write fails and nothing is revoked.
   */
  method DeleteAccount(db: CredentialStore, caller: Option<TokenPayload>, now: int) returns (o: Outcome)
    requires db.Valid()
    modifies db
    ensures db.Valid()
    ensures caller.None? ==> o == Respond(401, ErrorBody(AUTHENTICATION_REQUIRED)) && unchanged(db)
    ensures caller.Some? && caller.value.userId !in old(db.users) ==>
      o == PassToErrorHandler(RECORD_NOT_FOUND) && unchanged(db)
    ensures caller.Some? && caller.value.userId in old(db.users) ==>
      var id := caller.value.userId;
      && db.users == old(db.users)[id := old(db.users[id]).(isActive := false)]
      && db.refreshTokens == RevokeForUser(old(db.refreshTokens), id, now)
      && o == Reply(200, MessageBody(ACCOUNT_DEACTIVATED_MESSAGE), ClearRefreshCookie)
    ensures db.byEmail == old(db.byEmail) && db.audit == old(db.audit)
  {
    if caller.None? {
      return Respond(401, ErrorBody(AUTHENTICATION_REQUIRED));
    }
    var id := caller.value.userId;
    if id !in db.users {
      return PassToErrorHandler(RECORD_NOT_FOUND);
    }
    db.UpdateUser(db.users[id].(isActive := false));
    db.RevokeTokensOfUser(id, now);
    o := Reply(200, MessageBody(ACCOUNT_DEACTIVATED_MESSAGE), ClearRefreshCookie);
  }
}

=== FILE: validators.dfy ===
/**
 * Request validation rules: the password policy, the TOTP-code shape and the optional
 * name fields. Each rule is a predicate on the field's text; a length is measured as the
 * validation library's `isLength` measures it: code points (surrogate pairs folded), not
 * counting the variation selectors U+FE0E and U+FE0F.
 */
module Validators {

  import opened Wrappers

  predicate IsLower(c: char) { 'a' <= c <= 'z' }
  predicate IsUpper(c: char) { 'A' <= c <= 'Z' }
  predicate IsDigit(c: char) { '0' <= c <= '9' }
  predicate IsSpecial(c: char) { c in "@$!%*?&" }

  /** Characters a regular-expression `.` does not match. */
  predicate IsLineTerminator(c: char) {
    c == '\n' || c == '\r' || c == '\U{2028}' || c == '\U{2029}'
  }

  /** The character classes the password expression looks ahead for. */
  datatype CharClass = Lower | Upper | Digit | Special

  predicate InClass(k: CharClass, c: char) {
    match k
    case Lower => IsLower(c)
    case Upper => IsUpper(c)
    case Digit => IsDigit(c)
    case Special => IsSpecial(c)
  }

  /** `[A-Za-z\d@$!%*?&]`, the one character the expression consumes. */
  predicate IsPolicyChar(c: char) {
    IsLower(c) || IsUpper(c) || IsDigit(c) || IsSpecial(c)
  }

  /** A variation selector, which `isLength` does not count. */
  predicate IsVariationSelector(c: char) {
    c == '\U{FE0E}' || c == '\U{FE0F}'
  }

  /** `isLength`'s measure: the code points that are not variation selectors. */
  function VisibleLength(s: string): (n: nat)
    ensures n <= |s|
    ensures n == |s| <==> forall i :: 0 <= i < |s| ==> !IsVariationSelector(s[i])
    decreases |s|
  {
    if s == [] then 0
    else
      var rest := VisibleLength(s[1..]);
      assert forall i :: 1 <= i < |s| ==> s[i] == s[1..][i - 1];
      (if IsVariationSelector(s[0]) then 0 else 1) + rest
  }

  lemma {:induction false} VisibleLengthAppend(s: string, t: string)
    ensures VisibleLength(s + t) == VisibleLength(s) + VisibleLength(t)
    decreases |s|
  {
    if s != [] {
      assert (s + t)[0] == s[0] && (s + t)[1..] == s[1..] + t;
      VisibleLengthAppend(s[1..], t);
    } else {
      assert s + t == t;
    }
  }

  /** The lookahead `(?=.*[k])` at the start: scan over `.` characters until one in `k`. */
  predicate Lookahead(s: string, k: CharClass)
    decreases |s|
  {
    if s == [] then false
    else if InClass(k, s[0]) then true
    else if IsLineTerminator(s[0]) then false
    else Lookahead(s[1..], k)
  }

  /** Some character of class `k` occurs before the first line terminator. */
  ghost predicate OccursBeforeLineBreak(s: string, k: CharClass) {
    exists i :: 0 <= i < |s| && InClass(k, s[i]) && NoLineBreakBefore(s, i)
  }

  ghost predicate NoLineBreakBefore(s: string, i: int)
    requires 0 <= i <= |s|
  {
    forall j :: 0 <= j < i ==> !IsLineTerminator(s[j])
  }

  lemma {:induction false} LookaheadIff(s: string, k: CharClass)
    ensures Lookahead(s, k) <==> OccursBeforeLineBreak(s, k)
    decreases |s|
  {
    if s == [] {
    } else if InClass(k, s[0]) {
      assert NoLineBreakBefore(s, 0);
    } else if IsLineTerminator(s[0]) {
      forall i | 0 <= i < |s| && InClass(k, s[i]) ensures !NoLineBreakBefore(s, i) {
        assert i > 0 && IsLineTerminator(s[0]);
      }
    } else {
      LookaheadIff(s[1..], k);
      if Lookahead(s[1..], k) {
        var i :| 0 <= i < |s[1..]| && InClass(k, s[1..][i]) && NoLineBreakBefore(s[1..], i);
        assert InClass(k, s[i + 1]);
        assert NoLineBreakBefore(s, i + 1);
      }
      if OccursBeforeLineBreak(s, k) {
        var i :| 0 <= i < |s| && InClass(k, s[i]) && NoLineBreakBefore(s, i);
        assert i > 0;
        assert InClass(k, s[1..][i - 1]) && NoLineBreakBefore(s[1..], i - 1);
      }
    }
  }

  /** `/^(?=.*[a-z])(?=.*[A-Z])(?=.*\d)(?=.*[@$!%*?&])[A-Za-z\d@$!%*?&]/` (anchored at the start only). */
  predicate MatchesPasswordPattern(s: string) {
    Lookahead(s, Lower) && Lookahead(s, Upper) && Lookahead(s, Digit) && Lookahead(s, Special)
    && |s| > 0 && IsPolicyChar(s[0])
  }

  /**
   * The password rule shared by registration and reset: `isLength({min: 8})` and the
   * pattern. Accepted exactly when a lower-case letter, an upper-case letter, a digit and a
   * special character each occur before any line break and the FIRST character is one of
   * those classes; nothing constrains the later characters.
   */
  predicate StrongPassword(s: string)
    ensures StrongPassword(s) <==>
      VisibleLength(s) >= 8 && IsPolicyChar(s[0]) &&
      OccursBeforeLineBreak(s, Lower) && OccursBeforeLineBreak(s, Upper) &&
      OccursBeforeLineBreak(s, Digit) && OccursBeforeLineBreak(s, Special)
  {
    LookaheadIff(s, Lower);
    LookaheadIff(s, Upper);
    LookaheadIff(s, Digit);
    LookaheadIff(s, Special);
    VisibleLength(s) >= 8 && MatchesPasswordPattern(s)
  }

  /** Variation selectors do not count towards the minimum: eight code points can be too short. */
  lemma VariationSelectorsNotCounted()
    ensures !StrongPassword("Aa1@\U{FE0F}\U{FE0F}\U{FE0F}\U{FE0F}")
  {
    var s := "Aa1@\U{FE0F}\U{FE0F}\U{FE0F}\U{FE0F}";
    assert s == "Aa1@" + "\U{FE0F}\U{FE0F}\U{FE0F}\U{FE0F}";
    VisibleLengthAppend("Aa1@", "\U{FE0F}\U{FE0F}\U{FE0F}\U{FE0F}");
  }

  /** Appending anything to an accepted password keeps it accepted. */
  lemma StrongPasswordSuffixClosed(s: string, t: string)
    requires StrongPassword(s)
    ensures StrongPassword(s + t)
  {
    var u := s + t;
    VisibleLengthAppend(s, t);
    forall k: CharClass | OccursBeforeLineBreak(s, k) ensures OccursBeforeLineBreak(u, k) {
      var i :| 0 <= i < |s| && InClass(k, s[i]) && NoLineBreakBefore(s, i);
      assert u[i] == s[i];
      assert NoLineBreakBefore(u, i);
    }
  }

  /** A password the rule accepts although it ends in characters outside every class. */
  lemma StrongPasswordAcceptsAnyTail()
    ensures StrongPassword("Aa1@~\n\U{00E9}x")
  {
    var s := "Aa1@~\n\U{00E9}x";
    assert InClass(Upper, s[0]) && NoLineBreakBefore(s, 0);
    assert InClass(Lower, s[1]) && NoLineBreakBefore(s, 1);
    assert InClass(Digit, s[2]) && NoLineBreakBefore(s, 2);
    assert InClass(Special, s[3]) && NoLineBreakBefore(s, 3);
  }

  /**
   * Registration: email (not modelled), password rule, and optional names. Leaving both
   * names out never causes a refusal, and a password registration accepts is one login accepts.
   */
  predicate RegisterValid(password: string, firstName: Option<string>, lastName: Option<string>)
    ensures firstName.None? && lastName.None? ==> (RegisterValid(password, firstName, lastName) <==> StrongPassword(password))
    ensures RegisterValid(password, firstName, lastName) ==> LoginValid(password)
  {
    StrongPassword(password) && NameValid(firstName) && NameValid(lastName)
  }

  /** Login: the password only needs to be non-empty, so every password the policy admits passes. */
  predicate LoginValid(password: string)
    ensures StrongPassword(password) ==> LoginValid(password)
  {
    password != ""
  }

  /** Password reset: a non-empty token and the same password rule as registration. */
  predicate ResetPasswordValid(token: string, password: string) {
    token != "" && StrongPassword(password)
  }

  /** A reset accepts exactly the new passwords a registration without names accepts. */
  lemma ResetUsesRegisterRule(token: string, password: string)
    ensures ResetPasswordValid(token, password) <==> token != "" && RegisterValid(password, None, None)
  {
  }

  predicate AllDigits(s: string) {
    forall i :: 0 <= i < |s| ==> IsDigit(s[i])
  }

  /** `[0-9]*[.]` followed by `[0-9]+`, or just `[0-9]+`, up to the end. */
  predicate UnsignedNumeral(r: string) {
    (|r| > 0 && AllDigits(r)) ||
    exists k :: 0 <= k < |r| - 1 && r[k] == '.' && AllDigits(r[..k]) && AllDigits(r[k + 1..])
  }

  /** An unsigned numeral is digits with at most one point, and it ends in a digit. */
  lemma UnsignedNumeralShape(r: string)
    requires UnsignedNumeral(r)
    ensures |r| > 0 && IsDigit(r[|r| - 1])
    ensures forall i :: 0 <= i < |r| ==> IsDigit(r[i]) || r[i] == '.'
  {
    if !AllDigits(r) {
      var k :| 0 <= k < |r| - 1 && r[k] == '.' && AllDigits(r[..k]) && AllDigits(r[k + 1..]);
      assert forall i :: 0 <= i < k ==> r[i] == r[..k][i];
      assert forall i :: k < i < |r| ==> r[i] == r[k + 1..][i - k - 1];
    }
  }

  /**
   * `isNumeric` with default options: `/^[+-]?([0-9]*[.])?[0-9]+$/`. Anything it accepts is
   * digits and points, with at most a leading sign, and ends in a digit.
   */
  predicate IsNumeric(s: string)
    ensures IsNumeric(s) ==> |s| > 0 && IsDigit(s[|s| - 1])
    ensures IsNumeric(s) ==>
      forall i :: 0 <= i < |s| ==> IsDigit(s[i]) || s[i] == '.' || (i == 0 && (s[i] == '+' || s[i] == '-'))
  {
    if |s| > 0 && (s[0] == '+' || s[0] == '-') then
      var r := s[1..];
      if UnsignedNumeral(r) then
        UnsignedNumeralShape(r);
        assert forall i :: 1 <= i < |s| ==> s[i] == r[i - 1];
        true
      else false
    else
      if UnsignedNumeral(s) then UnsignedNumeralShape(s); true else false
  }

  /**
   * The TOTP code field: exactly 6 characters that pass `isNumeric`; the last is always a digit.
   * No variation selector passes `isNumeric`, so `isLength` is the plain length here.
   */
  predicate TotpCodeValid(code: string)
    ensures TotpCodeValid(code) ==> |code| == 6 && IsDigit(code[5])
  {
    |code| == 6 && IsNumeric(code)
  }

  /** Every string of six ASCII digits is a well-formed code. */
  lemma SixDigitsAccepted(code: string)
    requires |code| == 6 && AllDigits(code)
    ensures TotpCodeValid(code)
  {
  }

  /** The rule is wider than "six digits": a sign or a decimal point is accepted too. */
  lemma SignedAndDecimalCodesAccepted()
    ensures TotpCodeValid("+12345") && TotpCodeValid("1.2345") && !TotpCodeValid("12345a")
  {
    assert UnsignedNumeral("12345");
    var d := "1.2345";
    assert d[1] == '.' && AllDigits(d[..1]) && AllDigits(d[2..]);
    var bad := "12345a";
    assert !IsDigit(bad[5]);
    assert forall k | 0 <= k < |bad| :: bad[k] != '.';
  }

  /** The `\s` characters trimmed from both ends of a name. */
  predicate IsWhitespace(c: char) {
    || c == '\t' || c == '\n' || c == '\U{000B}' || c == '\U{000C}' || c == '\r' || c == ' '
    || c == '\U{00A0}' || c == '\U{1680}' || '\U{2000}' <= c <= '\U{200A}'
    || c == '\U{2028}' || c == '\U{2029}' || c == '\U{202F}' || c == '\U{205F}'
    || c == '\U{3000}' || c == '\U{FEFF}'
  }

  function TrimStart(s: string): (r: string)
    ensures |r| <= |s| && r == s[|s| - |r|..]
    ensures r != [] ==> !IsWhitespace(r[0])
    ensures forall i :: 0 <= i < |s| - |r| ==> IsWhitespace(s[i])
    decreases |s|
  {
    if s != [] && IsWhitespace(s[0]) then TrimStart(s[1..]) else s
  }

  function TrimEnd(s: string): (r: string)
    ensures |r| <= |s| && r == s[..|r|]
    ensures r != [] ==> !IsWhitespace(r[|r| - 1])
    ensures forall i :: |r| <= i < |s| ==> IsWhitespace(s[i])
    decreases |s|
  {
    if s != [] && IsWhitespace(s[|s| - 1]) then TrimEnd(s[..|s| - 1]) else s
  }

  /** `trim()`: drop whitespace at both ends; the result is a slice of the input. */
  function Trim(s: string): (r: string)
    ensures exists i, j :: (
      && 0 <= i <= j <= |s| && r == s[i..j]
      && (forall k :: 0 <= k < i ==> IsWhitespace(s[k]))
      && (forall k :: j <= k < |s| ==> IsWhitespace(s[k])))
    ensures r != [] ==> !IsWhitespace(r[0]) && !IsWhitespace(r[|r| - 1])
  {
    var t := TrimStart(s);
    var r := TrimEnd(t);
    var i := |s| - |t|;
    assert r == s[i..i + |r|];
    assert forall k :: i + |r| <= k < |s| ==> s[k] == t[k - i];
    r
  }

  /**
   * `optional().trim().isLength({min: 1, max: 50})`: an absent name passes, and a supplied
   * one that passes holds a character other than whitespace.
   */
  predicate NameValid(name: Option<string>)
    ensures name.None? ==> NameValid(name)
    ensures name.Some? && NameValid(name) ==> exists k :: 0 <= k < |name.value| && !IsWhitespace(name.value[k])
  {
    name.None? || 1 <= VisibleLength(Trim(name.value)) <= 50
  }

  lemma BlankNameRejected(n: nat)
    ensures !NameValid(Some(seq(n, _ => ' ')))
  {
    var s := seq(n, _ => ' ');
    WhitespaceTrimsAway(s);
    assert Trim(s) == TrimEnd([]);
  }

  lemma {:induction false} WhitespaceTrimsAway(s: string)
    requires forall i :: 0 <= i < |s| ==> IsWhitespace(s[i])
    ensures TrimStart(s) == []
    decreases |s|
  {
    if s != [] {
      WhitespaceTrimsAway(s[1..]);
    }
  }
}

=== FILE: wrappers.dfy ===
/** Optional values and results of operations that can fail. */
module Wrappers {

  datatype Option<+T> = None | Some(value: T)

  datatype Result<+T, +E> = Ok(value: T) | Err(error: E)

  /** A JavaScript string-valued field is "truthy" when it is present and not empty. */
  predicate Truthy(s: Option<string>) {
    s.Some? && s.value != ""
  }
}
